=== FILE: README.md ===
# Configuration validators of the training repository, in Dafny

The repository ships parsed configuration documents: a linear training
curriculum, a component topology, a provisioning topology and Ansible task
lists. It also ships a small set of validators, in `tests/test_validation.py`,
that decide whether those documents are well formed. This project models four
of the validators as pure functions from a parsed document to a verdict, and
proves what each one accepts.

The verdict is `Pass`, `Fail(violation)` or `Skip`. The four validators are:

- **Curriculum** (`Curriculum.ValidateCurriculum`). The training file must be
  a mapping with `name`, `description` and a non-empty `modules` list. Each
  module needs a truthy `id`, a non-blank `title` and a non-empty `phases`
  list. Each phase needs a non-blank `name` and a non-empty `activities` list.
  Each activity needs an integer `step`, a non-blank `description` and a
  non-empty list of non-blank `tools`. Finally, the steps of all activities
  of a module, pooled across its phases and sorted, must be exactly 1, 2, …, N.
- **Component topology** (`ComponentTopology.ValidateComponents`). The topology
  needs a `name`. Without component metadata the validator skips. Otherwise
  every component needs a non-blank `purpose`, and every name in its
  `integrations` list must be a declared component. A target that is a list
  or mapping cannot be looked up at all, and is reported as such.
- **Provisioning topology** (`ProvisioningTopology.ValidateProvisioning`). An
  absent file skips. A present file needs six keys. Host, router and network
  names must each be unique; the Python test checks this as "the set of names is as
  large as the list". Every network mapping must name a declared host and
  network. Every router mapping must name a declared router and network.
- **Task order** (`TaskOrder.ValidateTaskOrder`). In the reporting-workspace
  task list, the first task named "Configure Grafana repositories" must come
  strictly before the first task named "Install Grafana package".

Documents are values of `PyValues.Json`: null, booleans, integers, floats
(as reals), strings, lists, mappings with string keys in document order, and
YAML dates and timestamps. A timestamp is kept as the object PyYAML builds
for it, not as its spelling: a `date`, a naive `datetime`, or a
timezone-aware `datetime` with its UTC offset. It is not a string: it is
truthy and hashable, cannot be iterated, and has neither `strip` nor `get`.
Where the validators rely on Python semantics, the model states those
semantics explicitly:

- truthiness;
- `str.strip()` over Python's whitespace set;
- `isinstance(x, int)` accepting booleans;
- iteration over a mapping yielding its keys, and over a string its characters;
- set membership, under which `True`, `1` and `1.0` are the same element, two
  aware datetimes are the same element when they denote the same instant, and
  a date, a naive datetime and an aware datetime never equal one another.

Every exception the Python code can raise on a malformed document becomes a
`Fail` with a violation naming the cause. This covers `KeyError`,
`AttributeError`, `TypeError` and `StopIteration`.

Each validator has two definitions:

- the check as the Python test performs it, visiting the document in order and
  stopping at the first violation;
- a declarative reference predicate (`CurriculumConforms`,
  `TopologyConforms`, `ProvisioningConforms`, `RepoPrecedesInstall`) that
  states what a valid document is.

The main results are that the two agree, plus the facts that give the
checks their meaning:

- the sorted-equals-range step test holds exactly for permutations of 1..N;
- the order of phases and activities is irrelevant;
- the set-size test holds exactly when names are unique;
- a passing topology is closed under integration;
- the check reports the first occurrences of the two tasks in order.

Files: `verdicts.dfy` (result types), `pyvalues.dfy` (documents and the
Python operations on them), `sequences.dfy` (distinctness, set size,
flattening), `steporder.dfy` (the step test), `curriculum.dfy`,
`components.dfy`, `provisioning.dfy`, `taskorder.dfy`.

## Model

| member | source | states |
|---|---|---|
| PyValues.StripLeft | tests/test_validation.py:28 | the result is the suffix left after dropping only whitespace characters, and it does not start with whitespace |
| PyValues.StripRight | tests/test_validation.py:28 | the result is the prefix left after dropping only whitespace characters, and it does not end with whitespace |
| PyValues.StripNonEmptyIffNonSpace | tests/test_validation.py:28 | `s.strip()` is truthy exactly when `s` contains a non-whitespace character |
| PyValues.Lookup | tests/test_validation.py:22 | subscripting finds nothing exactly when no entry has the key; otherwise the value found is stored under that key |
| PyValues.FirstMissing | tests/test_validation.py:19-20 | no key is reported exactly when all required keys are present; a reported key is required and absent, and every key before it in the checked order is present, so it is the first missing one |
| PyValues.LenCountsIteration | tests/test_validation.py:99-101 | `len(v)` is defined exactly when `v` is iterable, and it counts the elements iteration visits |
| PyValues.AsKey | tests/test_validation.py:95-117 | only lists and mappings are unhashable; a string stands for itself as a set element |
| PyValues.KeysFollowPythonEquality | tests/test_validation.py:95-117 | the identities Python's `==` gives between kinds of scalar: `True`, `1` and `1.0` coincide, a boolean equals an integer only at 0 and 1, an integer equals a float only at the same value; None, strings and timestamps never equal a number or one another; timestamps coincide by day, by reading or by instant, never across date, naive and aware |
| PyValues.SameKeyIffPyEquals | tests/test_validation.py:95-117 | any two hashable values are the same set element exactly when Python's `==` holds between them, as defined pairwise by `PyEquals` |
| Sequences.SetSizeMatchesIffDistinct | tests/test_validation.py:99-101 | `set(s)` is never larger than `s`, and is as large exactly when no element of `s` repeats |
| Sequences.DistinctIffSingleOccurrences | tests/test_validation.py:48-52 | a sequence has no repeats exactly when every element occurs at most once in its multiset |
| Sequences.FlatMapPermutation | tests/test_validation.py:32-40 | permuting the groups permutes the pooled elements |
| Sequences.FlatMapAround | tests/test_validation.py:32-40 | taking one group out of the middle takes exactly its elements out of the pooled multiset |
| StepOrder.Insert | tests/test_validation.py:48 | inserting into an ascending list keeps it ascending and adds exactly one occurrence of the element |
| StepOrder.Sort | tests/test_validation.py:48 | `sorted(steps)` is ascending and a permutation of `steps` |
| StepOrder.SortedUnique | tests/test_validation.py:48-52 | two ascending lists with the same elements are equal, so comparing sorted lists compares multisets |
| StepOrder.StepsSequentialIffSameMultiset | tests/test_validation.py:48-52 | the sorted-equals-range test holds exactly when the steps and 1..N are the same multiset |
| StepOrder.StepsSequentialIgnoresOrder | tests/test_validation.py:48-52 | two arrangements of the same steps get the same outcome from the step test |
| StepOrder.SequentialMeansPermutation | tests/test_validation.py:48-52 | steps that pass the test are distinct and all lie in 1..N |
| StepOrder.PermutationMeansSequential | tests/test_validation.py:48-52 | distinct steps that all lie in 1..N pass the test |
| StepOrder.StepsSequentialIffPermutation | tests/test_validation.py:48-52 | the step test holds exactly when the steps are a permutation of 1..N: no duplicate, no gap, nothing below 1 or above N |
| StepOrder.PermutationIgnoresOrder | tests/test_validation.py:48-52 | being a permutation of 1..N depends only on the multiset of steps |
| Curriculum.CheckActivity | tests/test_validation.py:39-46 | an activity passes exactly when it conforms (keys, integer step, non-blank description, non-empty list of non-blank tools), and then yields its step |
| Curriculum.CheckActivities | tests/test_validation.py:38-46 | a phase's activities pass exactly when all conform, and yield their steps in order |
| Curriculum.CheckPhase | tests/test_validation.py:34-46 | a phase passes exactly when it conforms (keys, non-blank name, non-empty activity list, conforming activities), and yields its steps |
| Curriculum.CheckPhases | tests/test_validation.py:32-46 | a module's phases pass exactly when all conform, and yield the steps pooled across phases |
| Curriculum.CheckModuleShape | tests/test_validation.py:26-46 | a module yields its pooled steps exactly when everything but its step numbering conforms, and the steps it yields are those of its phases in order |
| Curriculum.CheckModule | tests/test_validation.py:25-52 | a module never skips and passes exactly when it conforms, including that its pooled steps are a permutation of 1..N; it fails the step test exactly when its shape conforms but its steps are not such a permutation, and that failure names the module's id |
| Curriculum.CheckModules | tests/test_validation.py:25 | the modules pass exactly when every module conforms |
| Curriculum.ValidateCurriculum | tests/test_validation.py:17-52 | the curriculum check never skips and passes exactly when the training file conforms |
| Curriculum.ConformanceDependsOnStepMultiset | tests/test_validation.py:32-52 | modules with the same id and title, alike-conforming phases and the same multiset of pooled steps conform alike |
| Curriculum.ModuleVerdictDependsOnStepMultiset | tests/test_validation.py:32-52 | such modules get the same verdict |
| Curriculum.PhaseOrderIrrelevant | tests/test_validation.py:32-40 | reordering a module's phases never changes whether it passes |
| Curriculum.ActivityOrderIrrelevant | tests/test_validation.py:38-40 | reordering a phase's activities keeps whether the phase conforms and the multiset of its steps |
| Curriculum.ActivityReorderKeepsModuleVerdict | tests/test_validation.py:32-48 | reordering the activities of any one phase never changes whether the module passes |
| ComponentTopology.CheckTargets | tests/test_validation.py:75-78 | no violation exactly when every target is declared; otherwise the reported target is in the list, is undeclared, and is paired with the component; it is reported as unhashable exactly when it is a list or mapping, so with hashable targets only an unknown target is reported |
| ComponentTopology.CheckComponent | tests/test_validation.py:71-78 | a component passes exactly when it conforms; a well-shaped component (hashable targets included) can fail only with an unknown target; an unknown or unhashable target is reported with the component that names it |
| ComponentTopology.CheckEntries | tests/test_validation.py:71-78 | the components pass exactly when all conform; if all are well shaped, any failure is an unknown target; a reported unknown or unhashable target is named by some component and is undeclared |
| ComponentTopology.ValidateComponents | tests/test_validation.py:62-78 | skips exactly when the document names itself but has no component metadata; passes exactly when the topology conforms; a topology whose components are all well shaped but which does not conform fails with an unknown target; an unknown or unhashable target is reported with its component, and is unhashable exactly when it is a list or mapping |
| ComponentTopology.PassingTopologyIsClosed | tests/test_validation.py:75-78 | in a passing topology every integration target is the name of a declared component |
| ProvisioningTopology.RequiredKeysPresent | tests/test_validation.py:92-93 | with the required keys present, each of the six keys can be subscripted |
| ProvisioningTopology.Names | tests/test_validation.py:95-97 | names are collected exactly when every entry has a hashable name, one per entry, in order |
| ProvisioningTopology.CheckReference | tests/test_validation.py:104-117 | a reference passes exactly when `mapping[field]` is hashable and known; an unknown one is reported with its list, field and value |
| ProvisioningTopology.EntityNames | tests/test_validation.py:95-97 | one kind's names are collected exactly when its list is iterable and every entry has a hashable name, and are then the names of the listed entries in order; otherwise the violation says which of the two failed |
| ProvisioningTopology.CheckMappingList | tests/test_validation.py:103-117 | one mapping list passes exactly when it is iterable and every mapping resolves its field and its network; it is reported as not iterable exactly when it is not |
| ProvisioningTopology.CheckEntities | tests/test_validation.py:95-117 | never skips; that it passes exactly when the document conforms is `CheckEntitiesPassIff` |
| ProvisioningTopology.CheckAllMappings | tests/test_validation.py:103-117 | never skips; that it passes exactly when both mapping lists conform is `CheckAllMappingsPassIff` |
| ProvisioningTopology.SameInstantNamesCollide | tests/test_validation.py:95-99 | two entries named by one instant, spelled in different time zones, are not uniquely named, so the duplicate test fails |
| ProvisioningTopology.CheckMappings | tests/test_validation.py:103-117 | a mapping list passes exactly when each mapping resolves its field and its network; a reported unknown name is unknown for its field |
| ProvisioningTopology.CheckDocument | tests/test_validation.py:92-117 | a loaded document is never skipped |
| ProvisioningTopology.ValidateProvisioning | tests/test_validation.py:85-87 | skips exactly when the topology file is absent |
| ProvisioningTopology.SetSizeTestIffUniquelyNamed | tests/test_validation.py:99-101 | `len(set(names)) == len(entries)` holds exactly when no two entries share a name |
| ProvisioningTopology.InNameSetIffNamed | tests/test_validation.py:95-97 | a name is in the set built from the entries exactly when some entry bears it |
| ProvisioningTopology.ResolvesIffRefersTo | tests/test_validation.py:104-117 | `mapping[field] in names` holds exactly when the mapping refers to a declared entry |
| ProvisioningTopology.EntityNamesMeaning | tests/test_validation.py:95-101 | collecting one kind's names succeeds exactly when its list is iterable and all entries are named, and then the set-size test decides whether that kind conforms |
| ProvisioningTopology.MappingListMeaning | tests/test_validation.py:103-117 | one mapping list passes exactly when it is iterable and each mapping refers to a declared entity and a declared network |
| ProvisioningTopology.CheckAllMappingsPassIff | tests/test_validation.py:103-117 | both mapping lists pass exactly when both conform |
| ProvisioningTopology.CheckEntitiesPassIff | tests/test_validation.py:95-117 | with the keys present, the rest of the check passes exactly when the document conforms |
| ProvisioningTopology.ValidateProvisioningPassIff | tests/test_validation.py:85-117 | passes exactly when the file is present and has the six keys, uniquely named hosts, routers and networks, and fully resolved mappings |
| ProvisioningTopology.DuplicateHostNamesReported | tests/test_validation.py:95-99 | two hosts sharing a name make the check fail with the duplicate-hosts violation |
| TaskOrder.FirstIndex | tests/test_validation.py:202-213 | finds nothing exactly when no task has the name; otherwise the index is of a task with the name and no earlier task has it |
| TaskOrder.ValidateTaskOrder | tests/test_validation.py:199-215 | never skips, and passes exactly when the task file can be iterated, every task is a mapping, and some repository task has no install task before it and one after it |
| TaskOrder.CheckTasks | tests/test_validation.py:202-215 | never skips; a reported wrong order has the install task strictly before the repository task |
| TaskOrder.PassMeansRepoPrecedesInstall | tests/test_validation.py:202-215 | a passing task list consists of mappings and has a repository task with no install task before it and one after it |
| TaskOrder.FirstOccurrencesOrdered | tests/test_validation.py:202-215 | such a repository task puts the first repository task before the first install task |
| TaskOrder.RepoPrecedesInstallMeansPass | tests/test_validation.py:202-215 | a list of mappings with such a repository task passes |
| TaskOrder.CheckTasksPassIff | tests/test_validation.py:202-215 | the check on a task list passes exactly when it consists of mappings and some repository task precedes every install task and is followed by one |
| TaskOrder.ValidateTaskOrderPassIff | tests/test_validation.py:199-215 | the check on the task file passes exactly when the file can be iterated, every task is a mapping, and some repository task has no install task before it and one after it |
| TaskOrder.MissingTaskFails | tests/test_validation.py:208-213 | without a repository task the check fails for that reason; with one but without an install task it fails for the missing install task |

## Left out

- Reading files: opening and parsing JSON and YAML, the fixtures at lines 10-14, 55-59 and 120-123, and `Path.exists()` at line 86. The validators take parsed documents, and an absent provisioning file is the input `Absent`.
- pytest machinery: fixtures, `parametrize` and `pytest.skip`. Skip is a constructor of the verdict.
- Lines 126-197 and 216-221. These are literal checks on the contents of particular Ansible files, such as `when`/`loop` strings, URL suffixes and `failed_when` substrings. They state no general behaviour.
- Mappings with non-string keys, which YAML allows. Keys are strings.
- How PyYAML turns a timestamp's spelling into its day, reading and offset (part of parsing, above). The model follows current PyYAML, which builds timezone-aware datetimes; older releases converted them to naive UTC.
- YAML values that load as bytes (`!!binary`), Python sets (`!!set`) or tuples and ordered pairs (`!!omap`, `!!pairs`). Plain documents do not produce them, and the document type has no constructor for them.
- Duplicate keys in a mapping. Lookup takes the first entry, as no parser produces duplicates.
- Floats are modelled as reals, so NaN and infinities are not modelled.
- Violations do not carry the positions (module, phase, activity index) of the offending element, just as the Python test's messages do not. A failed step test names the module id, and an unknown integration or mapping reference names the offending value.
- ProvisioningTopology.CheckDocument: a document that is not a mapping is reported as `NotAMapping`. Python fails at a later line there (an assertion or a `TypeError` at line 93, or a raising `data[key]` at line 95), but the verdict is a failure either way.
- ComponentTopology.ValidateComponents: likewise, a non-mapping document is reported as `NotAMapping`, and a component whose attributes are not a mapping as `BadPurpose`. Python fails there (an assertion, `TypeError` or `AttributeError`), and the verdict is the same.
- ProvisioningTopology.DuplicateHostNamesReported: stated for hosts only. A duplicate router or network name is reported only when the hosts have none, and the pass/fail statement `ValidateProvisioningPassIff` covers all three kinds.
- The validators are pure functions, so running one twice gives the same verdict by construction. No lemma states this.

=== FILE: components.dfy ===
/** The component-topology check of tests/test_validation.py: every declared
    component has a purpose, and every integration names a declared component.
    A topology without component metadata is skipped, not passed. */
module ComponentTopology {
  import opened Verdicts
  import opened PyValues

  datatype ComponentViolation =
    /** the topology document is not a mapping */
    | NotAMapping
    /** the document has no `name` */
    | MissingName
    /** `components` is truthy but not a mapping */
    | ComponentsNotAMapping
    /** the component's attributes are not a mapping with a non-blank `purpose` */
    | BadPurpose(component: string)
    /** the component's `integrations` is present but not a list */
    | IntegrationsNotAList(component: string)
    /** `component` integrates with `target`, which is not a declared component */
    | UnknownTarget(component: string, target: Json)
    /** `component` integrates with a list or mapping, which `target in
        components` cannot hash */
    | UnhashableTarget(component: string, target: Json)

  /** `topology_data.get("components")` */
  function ComponentsOf(doc: Json): Json {
    GetOr(doc, "components", JNull)
  }

  /** `attrs.get("integrations", [])` */
  function IntegrationsOf(attrs: Json): Json {
    GetOr(attrs, "integrations", JList([]))
  }

  /** The integration targets a component lists (none if it lists none, or
      if `integrations` is not a list, which fails the check anyway). */
  function TargetsOf(attrs: Json): seq<Json> {
    match IntegrationsOf(attrs)
    case JList(xs) => xs
    case _ => []
  }

  /** The component entries of a topology (none if `components` is not a mapping). */
  function EntriesOf(doc: Json): seq<Entry> {
    match ComponentsOf(doc)
    case JObject(es) => es
    case _ => []
  }

  /** `target in components` holds: only a string can equal a (string) key.
      An unhashable target makes the test raise instead (see CheckTargets). */
  predicate Declared(comps: seq<Entry>, target: Json) {
    target.JStr? && Lookup(comps, target.s).Some?
  }

  // ---------------------------------------------------------------------
  // Reference definitions.

  /** Everything required of a component except that its targets are
      declared: each target can at least be looked up. */
  ghost predicate ComponentShaped(e: Entry) {
    && e.value.JObject?
    && HasKey(e.value, "purpose")
    && NonBlankStr(Item(e.value, "purpose"))
    && IntegrationsOf(e.value).JList?
    && forall t :: t in TargetsOf(e.value) ==> AsKey(t).Some?
  }

  ghost predicate ComponentConforms(e: Entry, comps: seq<Entry>) {
    && ComponentShaped(e)
    && forall t :: t in TargetsOf(e.value) ==> Declared(comps, t)
  }

  /** The component metadata is absent or empty: the check does not apply. */
  ghost predicate NotApplicable(doc: Json) {
    doc.JObject? && HasKey(doc, "name") && !Truthy(ComponentsOf(doc))
  }

  /** The topology applies and every component is well shaped: only its
      integration targets remain to be checked. */
  ghost predicate TopologyShaped(doc: Json) {
    && doc.JObject?
    && HasKey(doc, "name")
    && Truthy(ComponentsOf(doc))
    && ComponentsOf(doc).JObject?
    && forall e :: e in EntriesOf(doc) ==> ComponentShaped(e)
  }

  ghost predicate TopologyConforms(doc: Json) {
    && doc.JObject?
    && HasKey(doc, "name")
    && Truthy(ComponentsOf(doc))
    && ComponentsOf(doc).JObject?
    && forall e :: e in EntriesOf(doc) ==> ComponentConforms(e, EntriesOf(doc))
  }

  // ---------------------------------------------------------------------
  // The check as test_validation.py performs it.

  /** Lines 75-78: the first integration target that is not declared, or
      that cannot be hashed, so that the membership test raises. */
  function CheckTargets(component: string, targets: seq<Json>, comps: seq<Entry>): (r: Option<ComponentViolation>)
    ensures r.None? <==> forall t :: t in targets ==> Declared(comps, t)
    ensures r.Some? ==> (r.value.UnknownTarget? || r.value.UnhashableTarget?) && r.value.component == component
    ensures r.Some? ==> r.value.target in targets && !Declared(comps, r.value.target)
    ensures r.Some? ==> (r.value.UnhashableTarget? <==> AsKey(r.value.target).None?)
    ensures (forall t :: t in targets ==> AsKey(t).Some?) && r.Some? ==> r.value.UnknownTarget?
  {
    if |targets| == 0 then None
    else if AsKey(targets[0]).None? then
      assert targets[0] in targets && !targets[0].JStr?;
      Some(UnhashableTarget(component, targets[0]))
    else if !Declared(comps, targets[0]) then Some(UnknownTarget(component, targets[0]))
    else
      assert forall t :: t in targets <==> t == targets[0] || t in targets[1..];
      CheckTargets(component, targets[1..], comps)
  }

  /** Lines 72-78 for one component. A target that is undeclared or cannot
      be hashed is reported together with the component that names it. */
  function CheckComponent(e: Entry, comps: seq<Entry>): (r: Option<ComponentViolation>)
    ensures r.None? <==> ComponentConforms(e, comps)
    ensures ComponentShaped(e) && r.Some? ==> r.value.UnknownTarget?
    ensures r.Some? && (r.value.UnknownTarget? || r.value.UnhashableTarget?) ==>
      && r.value.component == e.key
      && r.value.target in TargetsOf(e.value)
      && !Declared(comps, r.value.target)
      && (r.value.UnhashableTarget? <==> AsKey(r.value.target).None?)
  {
    var attrs := e.value;
    if !(attrs.JObject? && HasKey(attrs, "purpose") && NonBlankStr(Item(attrs, "purpose"))) then
      Some(BadPurpose(e.key))
    else if !IntegrationsOf(attrs).JList? then Some(IntegrationsNotAList(e.key))
    else CheckTargets(e.key, IntegrationsOf(attrs).items, comps)
  }

  /** Line 71: the components in document order, stopping at the first
      violation. */
  function CheckEntries(es: seq<Entry>, comps: seq<Entry>): (r: Option<ComponentViolation>)
    ensures r.None? <==> forall e :: e in es ==> ComponentConforms(e, comps)
    ensures (forall e :: e in es ==> ComponentShaped(e)) && r.Some? ==> r.value.UnknownTarget?
    ensures r.Some? && (r.value.UnknownTarget? || r.value.UnhashableTarget?) ==>
      && (exists e :: e in es && e.key == r.value.component && r.value.target in TargetsOf(e.value))
      && !Declared(comps, r.value.target)
      && (r.value.UnhashableTarget? <==> AsKey(r.value.target).None?)
  {
    if |es| == 0 then None
    else
      assert forall e :: e in es <==> e == es[0] || e in es[1..];
      var first := CheckComponent(es[0], comps);
      if first.Some? then first else CheckEntries(es[1..], comps)
  }

  /** `test_topology_components_are_consistent`. It skips exactly when the
      component metadata is absent or empty (never passing or failing
      then), and passes exactly when the topology conforms. */
  function ValidateComponents(doc: Json): (r: Verdict<ComponentViolation>)
    ensures r == Skip <==> NotApplicable(doc)
    ensures r == Pass <==> TopologyConforms(doc)
    ensures TopologyShaped(doc) && !TopologyConforms(doc) ==> r.Fail? && r.violation.UnknownTarget?
    ensures r.Fail? && (r.violation.UnknownTarget? || r.violation.UnhashableTarget?) ==>
      && (exists e :: e in EntriesOf(doc) && e.key == r.violation.component && r.violation.target in TargetsOf(e.value))
      && !Declared(EntriesOf(doc), r.violation.target)
      && (r.violation.UnhashableTarget? <==> AsKey(r.violation.target).None?)
  {
    if !doc.JObject? then Fail(NotAMapping)
    else if !HasKey(doc, "name") then Fail(MissingName)
    else
      var comps := ComponentsOf(doc);
      if !Truthy(comps) then Skip
      else if !comps.JObject? then Fail(ComponentsNotAMapping)
      else
        assert EntriesOf(doc) == comps.entries;
        match CheckEntries(comps.entries, comps.entries)
        case Some(v) => Fail(v)
        case None => Pass
  }

  /** A topology that passes is closed under integration: every name any
      component integrates with is the key of a declared component. */
  lemma PassingTopologyIsClosed(doc: Json)
    requires ValidateComponents(doc) == Pass
    ensures ComponentsOf(doc).JObject?
    ensures forall e, t :: e in EntriesOf(doc) && t in TargetsOf(e.value) ==>
      exists d :: d in EntriesOf(doc) && t == JStr(d.key)
  {
    var comps := EntriesOf(doc);
    forall e, t | e in comps && t in TargetsOf(e.value)
      ensures exists d :: d in comps && t == JStr(d.key)
    {
      assert ComponentConforms(e, comps);
      assert Declared(comps, t);
      var v := Lookup(comps, t.s).value;
      var i :| 0 <= i < |comps| && comps[i] == Entry(t.s, v);
      assert comps[i] in comps && t == JStr(comps[i].key);
    }
  }
}

=== FILE: curriculum.dfy ===
/** The training-curriculum check of tests/test_validation.py: structural
    checks on modules, phases, activities and tools, then, per module, the
    test that the activity steps pooled across all phases are 1..N. */
module Curriculum {
  import opened Verdicts
  import opened PyValues
  import opened Sequences
  import opened StepOrder

  /** Which kind of entry a structural violation was found in. */
  datatype Where = AtTrainingFile | AtModule | AtPhase | AtActivity

  datatype CurriculumViolation =
    /** the entry is not a mapping (`isinstance(…, dict)` fails, or it has no `.keys()`) */
    | NotAMapping(at: Where)
    /** a required key is absent: for the training file the first absent one
        in the order line 19 checks them; for a module, phase or activity,
        whose keys lines 26, 34 and 39 test as one set inclusion, the first
        absent one of ModuleKeys, PhaseKeys or ActivityKeys */
    | MissingKey(at: Where, key: string)
    /** the value under `field` is not a non-empty list */
    | EmptyList(at: Where, field: string)
    /** the module `id` is falsy */
    | FalsyModuleId
    /** the value under `field` is not a string with a non-whitespace character */
    | Blank(at: Where, field: string)
    /** an activity's `step` is not an `int` */
    | StepNotInteger
    /** the module's steps, sorted, are not 1..N; names the module id */
    | StepsNotSequential(moduleId: Json)

  const TrainingKeys: seq<string> := ["name", "description", "modules"]
  const ModuleKeys: seq<string> := ["id", "title", "phases"]
  const PhaseKeys: seq<string> := ["name", "activities"]
  const ActivityKeys: seq<string> := ["step", "description", "tools"]

  /** `isinstance(v, list) and v` */
  predicate NonEmptyList(v: Json) {
    v.JList? && |v.items| > 0
  }

  /** `isinstance(v, int)`, under which a Python bool is the int 0 or 1. */
  function StepValue(v: Json): Option<int> {
    match v
    case JInt(i) => Some(i)
    case JBool(b) => Some(if b then 1 else 0)
    case _ => None
  }

  // ---------------------------------------------------------------------
  // Reference definitions: what a conforming curriculum is, stated without
  // regard to the order in which the Python test visits it.

  ghost predicate ActivityConforms(a: Json) {
    && a.JObject?
    && HasKey(a, "step") && HasKey(a, "description") && HasKey(a, "tools")
    && StepValue(Item(a, "step")).Some?
    && NonBlankStr(Item(a, "description"))
    && NonEmptyList(Item(a, "tools"))
    && forall t :: t in Item(a, "tools").items ==> NonBlankStr(t)
  }

  ghost predicate PhaseConforms(p: Json) {
    && p.JObject?
    && HasKey(p, "name") && HasKey(p, "activities")
    && NonBlankStr(Item(p, "name"))
    && NonEmptyList(Item(p, "activities"))
    && forall a :: a in Item(p, "activities").items ==> ActivityConforms(a)
  }

  /** The step an activity contributes (0 when it has no integer step; such
      an activity never reaches the step test). */
  function ActivityStep(a: Json): seq<int> {
    match StepValue(GetOr(a, "step", JNull))
    case Some(n) => [n]
    case None => [0]
  }

  /** The activities of a phase (none when it has no activity list). */
  function ActivitiesOf(p: Json): seq<Json> {
    match GetOr(p, "activities", JNull)
    case JList(xs) => xs
    case _ => []
  }

  /** The steps of one phase, in activity order. */
  function PhaseSteps(p: Json): seq<int> {
    FlatMap(ActivitiesOf(p), ActivityStep)
  }

  /** The steps of a module, pooled across all its phases. */
  function PooledSteps(phases: seq<Json>): seq<int> {
    FlatMap(phases, PhaseSteps)
  }

  /** Everything required of a module except its step numbering. */
  ghost predicate ModuleShapeConforms(m: Json) {
    && m.JObject?
    && HasKey(m, "id") && HasKey(m, "title") && HasKey(m, "phases")
    && Truthy(Item(m, "id"))
    && NonBlankStr(Item(m, "title"))
    && NonEmptyList(Item(m, "phases"))
    && (forall p :: p in Item(m, "phases").items ==> PhaseConforms(p))
  }

  ghost predicate ModuleConforms(m: Json) {
    && ModuleShapeConforms(m)
    && PermutationOfOneToN(PooledSteps(Item(m, "phases").items))
  }

  ghost predicate CurriculumConforms(doc: Json) {
    && doc.JObject?
    && HasKey(doc, "name") && HasKey(doc, "description") && HasKey(doc, "modules")
    && NonEmptyList(Item(doc, "modules"))
    && forall m :: m in Item(doc, "modules").items ==> ModuleConforms(m)
  }

  // ---------------------------------------------------------------------
  // The check as the Python test performs it: in document order, stopping at
  // the first violation.

  /** Lines 39-46 for one activity: its step, or the first violation. */
  function CheckActivity(a: Json): (r: Result<int, CurriculumViolation>)
    ensures r.Ok? <==> ActivityConforms(a)
    ensures r.Ok? ==> [r.value] == ActivityStep(a)
    ensures r.Err? ==> !r.error.StepsNotSequential?
  {
    if !a.JObject? then Err(NotAMapping(AtActivity))
    else match FirstMissing(a, ActivityKeys)
      case Some(k) => Err(MissingKey(AtActivity, k))
      case None =>
        assert "step" in ActivityKeys && "description" in ActivityKeys && "tools" in ActivityKeys;
        var step := StepValue(Item(a, "step"));
        var tools := Item(a, "tools");
        if step.None? then Err(StepNotInteger)
        else if !NonBlankStr(Item(a, "description")) then Err(Blank(AtActivity, "description"))
        else if !NonEmptyList(tools) then Err(EmptyList(AtActivity, "tools"))
        else if exists t :: t in tools.items && !NonBlankStr(t) then Err(Blank(AtActivity, "tools"))
        else Ok(step.value)
  }

  /** Lines 38-46: the steps of a phase's activities in order, or the first
      violation among them. */
  function CheckActivities(acts: seq<Json>): (r: Result<seq<int>, CurriculumViolation>)
    ensures r.Ok? <==> forall a :: a in acts ==> ActivityConforms(a)
    ensures r.Ok? ==> r.value == FlatMap(acts, ActivityStep)
    ensures r.Err? ==> !r.error.StepsNotSequential?
  {
    if |acts| == 0 then Ok([])
    else
      assert forall a :: a in acts <==> a == acts[0] || a in acts[1..];
      match CheckActivity(acts[0])
      case Err(e) => Err(e)
      case Ok(s) =>
        match CheckActivities(acts[1..])
        case Err(e) => Err(e)
        case Ok(rest) => Ok([s] + rest)
  }

  /** Lines 34-46 for one phase: the steps of its activities, or the first
      violation. */
  function CheckPhase(p: Json): (r: Result<seq<int>, CurriculumViolation>)
    ensures r.Ok? <==> PhaseConforms(p)
    ensures r.Ok? ==> r.value == PhaseSteps(p)
    ensures r.Err? ==> !r.error.StepsNotSequential?
  {
    if !p.JObject? then Err(NotAMapping(AtPhase))
    else match FirstMissing(p, PhaseKeys)
      case Some(k) => Err(MissingKey(AtPhase, k))
      case None =>
        assert "name" in PhaseKeys && "activities" in PhaseKeys;
        var acts := Item(p, "activities");
        if !NonBlankStr(Item(p, "name")) then Err(Blank(AtPhase, "name"))
        else if !NonEmptyList(acts) then Err(EmptyList(AtPhase, "activities"))
        else CheckActivities(acts.items)
  }

  /** Lines 32-46: the steps of a module's phases, pooled in order, or the
      first violation among them. */
  function CheckPhases(phases: seq<Json>): (r: Result<seq<int>, CurriculumViolation>)
    ensures r.Ok? <==> forall p :: p in phases ==> PhaseConforms(p)
    ensures r.Ok? ==> r.value == PooledSteps(phases)
    ensures r.Err? ==> !r.error.StepsNotSequential?
  {
    if |phases| == 0 then Ok([])
    else
      assert forall p :: p in phases <==> p == phases[0] || p in phases[1..];
      match CheckPhase(phases[0])
      case Err(e) => Err(e)
      case Ok(steps) =>
        match CheckPhases(phases[1..])
        case Err(e) => Err(e)
        case Ok(rest) => Ok(steps + rest)
  }

  /** Lines 26-46 for one module: its pooled steps, or the first violation
      of its shape. */
  function CheckModuleShape(m: Json): (r: Result<seq<int>, CurriculumViolation>)
    ensures r.Ok? <==> ModuleShapeConforms(m)
    ensures r.Ok? ==> r.value == PooledSteps(Item(m, "phases").items)
    ensures r.Err? ==> !r.error.StepsNotSequential?
  {
    if !m.JObject? then Err(NotAMapping(AtModule))
    else match FirstMissing(m, ModuleKeys)
      case Some(k) => Err(MissingKey(AtModule, k))
      case None =>
        assert "id" in ModuleKeys && "title" in ModuleKeys && "phases" in ModuleKeys;
        var phases := Item(m, "phases");
        if !Truthy(Item(m, "id")) then Err(FalsyModuleId)
        else if !NonBlankStr(Item(m, "title")) then Err(Blank(AtModule, "title"))
        else if !NonEmptyList(phases) then Err(EmptyList(AtModule, "phases"))
        else CheckPhases(phases.items)
  }

  /** Lines 25-52 for one module: it passes exactly when it conforms, and it
      fails the step test, naming the module's id, exactly when its shape
      conforms but its steps are not a permutation of 1..N. */
  function CheckModule(m: Json): (r: Verdict<CurriculumViolation>)
    ensures r != Skip
    ensures r == Pass <==> ModuleConforms(m)
    ensures r.Fail? && r.violation.StepsNotSequential? ==> Get(m, "id") == Some(r.violation.moduleId)
    ensures r.Fail? && r.violation.StepsNotSequential? <==>
      ModuleShapeConforms(m) && !PermutationOfOneToN(PooledSteps(Item(m, "phases").items))
  {
    match CheckModuleShape(m)
    case Err(e) => Fail(e)
    case Ok(steps) =>
      StepsSequentialIffPermutation(steps);
      if StepsSequential(steps) then Pass
      else Fail(StepsNotSequential(Item(m, "id")))
  }

  /** Line 25: the modules in order, stopping at the first that fails. */
  function CheckModules(ms: seq<Json>): (r: Verdict<CurriculumViolation>)
    ensures r != Skip
    ensures r == Pass <==> forall m :: m in ms ==> ModuleConforms(m)
  {
    if |ms| == 0 then Pass
    else
      assert forall m :: m in ms <==> m == ms[0] || m in ms[1..];
      var first := CheckModule(ms[0]);
      if first.Pass? then CheckModules(ms[1..]) else first
  }

  /** `test_training_linear_structure`: the whole training file. It never
      skips, and passes exactly when the file conforms. */
  function ValidateCurriculum(doc: Json): (r: Verdict<CurriculumViolation>)
    ensures r != Skip
    ensures r == Pass <==> CurriculumConforms(doc)
  {
    if !doc.JObject? then Fail(NotAMapping(AtTrainingFile))
    else match FirstMissing(doc, TrainingKeys)
      case Some(k) => Fail(MissingKey(AtTrainingFile, k))
      case None =>
        assert "name" in TrainingKeys && "description" in TrainingKeys && "modules" in TrainingKeys;
        var modules := Item(doc, "modules");
        if !NonEmptyList(modules) then Fail(EmptyList(AtTrainingFile, "modules"))
        else CheckModules(modules.items)
  }

  // ---------------------------------------------------------------------
  // Pooling: the verdict on a module depends on its steps only through
  // their multiset, so the order of phases and activities does not matter.

  /** Two modules with the same id and title, whose phases all conform alike
      and whose pooled steps are the same multiset, conform alike. */
  lemma ConformanceDependsOnStepMultiset(m1: Json, m2: Json, ps1: seq<Json>, ps2: seq<Json>)
    requires Get(m1, "id") == Get(m2, "id") && Get(m1, "title") == Get(m2, "title")
    requires Get(m1, "phases") == Some(JList(ps1)) && Get(m2, "phases") == Some(JList(ps2))
    requires |ps1| > 0 <==> |ps2| > 0
    requires (forall p :: p in ps1 ==> PhaseConforms(p)) <==> (forall p :: p in ps2 ==> PhaseConforms(p))
    requires multiset(PooledSteps(ps1)) == multiset(PooledSteps(ps2))
    ensures ModuleConforms(m1) <==> ModuleConforms(m2)
  {
    PermutationIgnoresOrder(PooledSteps(ps1), PooledSteps(ps2));
    assert m1.JObject? && m2.JObject?;
    assert Item(m1, "phases") == JList(ps1) && Item(m2, "phases") == JList(ps2);
  }

  /** Hence such modules get the same verdict. */
  lemma ModuleVerdictDependsOnStepMultiset(m1: Json, m2: Json, ps1: seq<Json>, ps2: seq<Json>)
    requires Get(m1, "id") == Get(m2, "id") && Get(m1, "title") == Get(m2, "title")
    requires Get(m1, "phases") == Some(JList(ps1)) && Get(m2, "phases") == Some(JList(ps2))
    requires |ps1| > 0 <==> |ps2| > 0
    requires (forall p :: p in ps1 ==> PhaseConforms(p)) <==> (forall p :: p in ps2 ==> PhaseConforms(p))
    requires multiset(PooledSteps(ps1)) == multiset(PooledSteps(ps2))
    ensures CheckModule(m1).Pass? <==> CheckModule(m2).Pass?
  {
    ConformanceDependsOnStepMultiset(m1, m2, ps1, ps2);
  }

  /** Reordering the phases of a module never changes whether it passes. */
  lemma PhaseOrderIrrelevant(m1: Json, m2: Json, ps1: seq<Json>, ps2: seq<Json>)
    requires Get(m1, "id") == Get(m2, "id") && Get(m1, "title") == Get(m2, "title")
    requires Get(m1, "phases") == Some(JList(ps1)) && Get(m2, "phases") == Some(JList(ps2))
    requires multiset(ps1) == multiset(ps2)
    ensures CheckModule(m1).Pass? <==> CheckModule(m2).Pass?
  {
    assert |ps1| == |multiset(ps1)| == |multiset(ps2)| == |ps2|;
    assert forall p :: p in ps1 <==> p in ps2 by {
      forall p ensures p in ps1 <==> p in ps2 {
        assert p in ps1 <==> p in multiset(ps1);
        assert p in ps2 <==> p in multiset(ps2);
      }
    }
    FlatMapPermutation(ps1, ps2, PhaseSteps);
    ModuleVerdictDependsOnStepMultiset(m1, m2, ps1, ps2);
  }

  /** Reordering the activities of a phase keeps whether the phase conforms
      and keeps the multiset of its steps, so (by the lemma above) it never
      changes a module's verdict either. */
  lemma ActivityOrderIrrelevant(p1: Json, p2: Json, as1: seq<Json>, as2: seq<Json>)
    requires Get(p1, "name") == Get(p2, "name")
    requires Get(p1, "activities") == Some(JList(as1)) && Get(p2, "activities") == Some(JList(as2))
    requires multiset(as1) == multiset(as2)
    ensures PhaseConforms(p1) <==> PhaseConforms(p2)
    ensures multiset(PhaseSteps(p1)) == multiset(PhaseSteps(p2))
  {
    assert |as1| == |multiset(as1)| == |multiset(as2)| == |as2|;
    assert forall a :: a in as1 <==> a in as2 by {
      forall a ensures a in as1 <==> a in as2 {
        assert a in as1 <==> a in multiset(as1);
        assert a in as2 <==> a in multiset(as2);
      }
    }
    assert p1.JObject? && p2.JObject?;
    assert Item(p1, "activities") == JList(as1) && Item(p2, "activities") == JList(as2);
    assert ActivitiesOf(p1) == as1 && ActivitiesOf(p2) == as2;
    assert PhaseConforms(p1) <==> PhaseConforms(p2);
    FlatMapPermutation(as1, as2, ActivityStep);
  }

  /** Reordering the activities of one phase of a module never changes
      whether the module passes. */
  lemma ActivityReorderKeepsModuleVerdict(m1: Json, m2: Json, before: seq<Json>, p1: Json, p2: Json,
                                          after: seq<Json>, as1: seq<Json>, as2: seq<Json>)
    requires Get(m1, "id") == Get(m2, "id") && Get(m1, "title") == Get(m2, "title")
    requires Get(m1, "phases") == Some(JList(before + [p1] + after))
    requires Get(m2, "phases") == Some(JList(before + [p2] + after))
    requires Get(p1, "name") == Get(p2, "name")
    requires Get(p1, "activities") == Some(JList(as1)) && Get(p2, "activities") == Some(JList(as2))
    requires multiset(as1) == multiset(as2)
    ensures CheckModule(m1).Pass? <==> CheckModule(m2).Pass?
  {
    var ps1, ps2 := before + [p1] + after, before + [p2] + after;
    ActivityOrderIrrelevant(p1, p2, as1, as2);
    FlatMapAround(before, p1, after, PhaseSteps);
    FlatMapAround(before, p2, after, PhaseSteps);
    ReplacedPhaseKeepsConformance(before, p1, p2, after);
    ModuleVerdictDependsOnStepMultiset(m1, m2, ps1, ps2);
  }

  /** Replacing one phase by another that conforms exactly when it does keeps
      whether all phases conform. */
  lemma ReplacedPhaseKeepsConformance(before: seq<Json>, p1: Json, p2: Json, after: seq<Json>)
    requires PhaseConforms(p1) <==> PhaseConforms(p2)
    ensures (forall p :: p in before + [p1] + after ==> PhaseConforms(p)) <==>
            (forall p :: p in before + [p2] + after ==> PhaseConforms(p))
  {
    assert forall p :: p in before + [p1] + after <==> p in before || p == p1 || p in after;
    assert forall p :: p in before + [p2] + after <==> p in before || p == p2 || p in after;
  }
}

=== FILE: provisioning.dfy ===
/** The provisioning-topology check of tests/test_validation.py: required
    keys, unique host/router/network names, and mappings that only refer to
    declared hosts, routers and networks. An absent topology file is skipped. */
module ProvisioningTopology {
  import opened Verdicts
  import opened PyValues
  import opened Sequences

  /** The per-case topology file, which the repository may not contain. */
  datatype TopologyFile = Absent | Present(doc: Json)

  datatype Entity = Host | Router | Network

  datatype ProvisioningViolation =
    /** the document is not a mapping */
    | NotAMapping
    /** one of the six required keys is absent (the first, in the order the Python test checks) */
    | MissingKey(key: string)
    /** the value under `key` cannot be iterated */
    | NotIterable(key: string)
    /** some entry of that kind has no hashable `name` (`entry["name"]` raises) */
    | UnnamedEntry(kind: Entity)
    /** two entries of that kind share a name */
    | DuplicateNames(kind: Entity)
    /** an entry of the mapping list `list` has no hashable `field` */
    | MalformedMapping(list: string, field: string)
    /** `mapping[field]` names no declared entity of the right kind */
    | UnknownReference(list: string, field: string, name: Json)

  const RequiredKeys: seq<string> :=
    ["name", "hosts", "routers", "networks", "net_mappings", "router_mappings"]

  /** The top-level key that lists the entities of a kind. */
  function ListKey(kind: Entity): string {
    match kind
    case Host => "hosts"
    case Router => "routers"
    case Network => "networks"
  }

  /** `entry["name"]` as a set element: absent when the subscript raises or
      the name is unhashable. */
  function NameOf(entry: Json): Option<Key> {
    match Get(entry, "name")
    case Some(n) => AsKey(n)
    case None => None
  }

  /** What `for x in doc[key]` visits (nothing when the key is absent or its
      value is not iterable). */
  function Listed(doc: Json, key: string): seq<Json> {
    match Iterate(GetOr(doc, key, JNull))
    case Some(xs) => xs
    case None => []
  }

  // ---------------------------------------------------------------------
  // Reference definitions.

  /** Every entry has a name and no two entries share one. */
  ghost predicate UniquelyNamed(entries: seq<Json>) {
    && (forall e :: e in entries ==> NameOf(e).Some?)
    && forall i, j :: 0 <= i < j < |entries| ==> NameOf(entries[i]) != NameOf(entries[j])
  }

  /** `mapping[field]` is a hashable value that is the name of one of `entries`. */
  ghost predicate RefersTo(m: Json, field: string, entries: seq<Json>) {
    && HasKey(m, field)
    && AsKey(Item(m, field)).Some?
    && exists e :: e in entries && NameOf(e) == AsKey(Item(m, field))
  }

  ghost predicate EntitiesConform(doc: Json, kind: Entity) {
    && Iterate(GetOr(doc, ListKey(kind), JNull)).Some?
    && UniquelyNamed(Listed(doc, ListKey(kind)))
  }

  /** The mapping list under `list` is iterable, and each of its mappings
      refers through `field` to an entity listed under `entities` and
      through `network` to a listed network. */
  ghost predicate MappingsConform(doc: Json, list: string, field: string, entities: string) {
    && Iterate(GetOr(doc, list, JNull)).Some?
    && forall m :: m in Listed(doc, list) ==>
         RefersTo(m, field, Listed(doc, entities)) && RefersTo(m, "network", Listed(doc, "networks"))
  }

  /** All six required keys are present. */
  predicate KeysPresent(doc: Json) {
    forall k :: k in RequiredKeys ==> HasKey(doc, k)
  }

  /** The required keys one by one. */
  lemma RequiredKeysPresent(doc: Json)
    requires KeysPresent(doc)
    ensures HasKey(doc, "name") && HasKey(doc, "hosts") && HasKey(doc, "routers")
    ensures HasKey(doc, "networks") && HasKey(doc, "net_mappings") && HasKey(doc, "router_mappings")
  {
    assert RequiredKeys[0] == "name" && RequiredKeys[1] == "hosts" && RequiredKeys[2] == "routers";
    assert RequiredKeys[3] == "networks" && RequiredKeys[4] == "net_mappings" && RequiredKeys[5] == "router_mappings";
  }

  ghost predicate ProvisioningConforms(doc: Json) {
    && doc.JObject?
    && KeysPresent(doc)
    && EntitiesConform(doc, Host)
    && EntitiesConform(doc, Router)
    && EntitiesConform(doc, Network)
    && MappingsConform(doc, "net_mappings", "host", "hosts")
    && MappingsConform(doc, "router_mappings", "router", "routers")
  }

  // ---------------------------------------------------------------------
  // The check as test_validation.py performs it.

  /** The names of `entries`, in order; None when one has no hashable name. */
  function Names(entries: seq<Json>): (r: Option<seq<Key>>)
    ensures r.Some? <==> forall e :: e in entries ==> NameOf(e).Some?
    ensures r.Some? ==> |r.value| == |entries|
    ensures r.Some? ==> forall i :: 0 <= i < |entries| ==> NameOf(entries[i]) == Some(r.value[i])
  {
    if |entries| == 0 then Some([])
    else
      assert forall e :: e in entries <==> e == entries[0] || e in entries[1..];
      match NameOf(entries[0])
      case None => None
      case Some(n) =>
        match Names(entries[1..])
        case None => None
        case Some(rest) => Some([n] + rest)
  }

  /** Lines 95-97 for one kind: the names under its key, or why they cannot
      be collected. */
  function EntityNames(doc: Json, kind: Entity): (r: Result<seq<Key>, ProvisioningViolation>)
    requires HasKey(doc, ListKey(kind))
    ensures r.Ok? <==>
      Iterate(Item(doc, ListKey(kind))).Some? && forall e :: e in Listed(doc, ListKey(kind)) ==> NameOf(e).Some?
    ensures r.Ok? ==> Names(Listed(doc, ListKey(kind))) == Some(r.value)
    ensures r.Err? ==>
      r.error == (if Iterate(Item(doc, ListKey(kind))).None? then NotIterable(ListKey(kind)) else UnnamedEntry(kind))
  {
    assert GetOr(doc, ListKey(kind), JNull) == Item(doc, ListKey(kind));
    match Iterate(Item(doc, ListKey(kind)))
    case None => Err(NotIterable(ListKey(kind)))
    case Some(es) =>
      match Names(es)
      case None => Err(UnnamedEntry(kind))
      case Some(ns) => Ok(ns)
  }

  /** Lines 99-101: `len(set(names)) == len(doc[key])`. */
  predicate SetSizeTest(names: seq<Key>, listed: Json) {
    Len(listed) == Some(|Elements(names)|)
  }

  /** `mapping[field]` is hashable and in `known`. */
  ghost predicate Resolves(m: Json, field: string, known: set<Key>) {
    HasKey(m, field) && AsKey(Item(m, field)).Some? && AsKey(Item(m, field)).value in known
  }

  /** Lines 104-117 for one field of one mapping: `mapping[field] in known`. */
  function CheckReference(m: Json, list: string, field: string, known: set<Key>): (r: Option<ProvisioningViolation>)
    ensures r.None? <==> Resolves(m, field, known)
    ensures r.Some? ==> r.value.MalformedMapping? || r.value.UnknownReference?
    ensures r.Some? && r.value.UnknownReference? ==>
      && r.value.list == list && r.value.field == field
      && Get(m, field) == Some(r.value.name)
      && AsKey(r.value.name).Some? && AsKey(r.value.name).value !in known
  {
    match Get(m, field)
    case None => Some(MalformedMapping(list, field))
    case Some(v) =>
      match AsKey(v)
      case None => Some(MalformedMapping(list, field))
      case Some(k) => if k in known then None else Some(UnknownReference(list, field, v))
  }

  /** Lines 103-117: each mapping's `field` must be in `known` and its
      `network` in `networks`, checked mapping by mapping. */
  function CheckMappings(list: string, ms: seq<Json>, field: string, known: set<Key>, networks: set<Key>)
    : (r: Option<ProvisioningViolation>)
    ensures r.None? <==> forall m :: m in ms ==> Resolves(m, field, known) && Resolves(m, "network", networks)
    ensures r.Some? ==> r.value.MalformedMapping? || r.value.UnknownReference?
    ensures r.Some? && r.value.UnknownReference? ==>
      && r.value.list == list
      && AsKey(r.value.name).Some?
      && ((r.value.field == field && AsKey(r.value.name).value !in known)
          || (r.value.field == "network" && AsKey(r.value.name).value !in networks))
  {
    if |ms| == 0 then None
    else
      assert forall m :: m in ms <==> m == ms[0] || m in ms[1..];
      var first := CheckReference(ms[0], list, field, known);
      if first.Some? then first
      else
        var second := CheckReference(ms[0], list, "network", networks);
        if second.Some? then second
        else CheckMappings(list, ms[1..], field, known, networks)
  }

  /** Lines 103-117 for one mapping list. */
  function CheckMappingList(doc: Json, list: string, field: string, known: set<Key>, networks: set<Key>)
    : (r: Option<ProvisioningViolation>)
    requires HasKey(doc, list)
    ensures r.None? <==>
      && Iterate(Item(doc, list)).Some?
      && forall m :: m in Listed(doc, list) ==> Resolves(m, field, known) && Resolves(m, "network", networks)
    ensures r == Some(NotIterable(list)) <==> Iterate(Item(doc, list)).None?
  {
    assert GetOr(doc, list, JNull) == Item(doc, list);
    match Iterate(Item(doc, list))
    case None => Some(NotIterable(list))
    case Some(ms) => CheckMappings(list, ms, field, known, networks)
  }


  /** Lines 92-117 on a loaded document. */
  function CheckDocument(doc: Json): (r: Verdict<ProvisioningViolation>)
    ensures r != Skip
  {
    if !doc.JObject? then Fail(NotAMapping)
    else match FirstMissing(doc, RequiredKeys)
      case Some(k) => Fail(MissingKey(k))
      case None => CheckEntities(doc)
  }

  /** Lines 95-117, once the required keys are known to be present. */
  function CheckEntities(doc: Json): (r: Verdict<ProvisioningViolation>)
    requires KeysPresent(doc)
    ensures r != Skip
  {
    RequiredKeysPresent(doc);
    match EntityNames(doc, Host)
    case Err(e) => Fail(e)
    case Ok(hosts) =>
      match EntityNames(doc, Router)
      case Err(e) => Fail(e)
      case Ok(routers) =>
        match EntityNames(doc, Network)
        case Err(e) => Fail(e)
        case Ok(networks) =>
          if !SetSizeTest(hosts, Item(doc, "hosts")) then Fail(DuplicateNames(Host))
          else if !SetSizeTest(routers, Item(doc, "routers")) then Fail(DuplicateNames(Router))
          else if !SetSizeTest(networks, Item(doc, "networks")) then Fail(DuplicateNames(Network))
          else CheckAllMappings(doc, Elements(hosts), Elements(routers), Elements(networks))
  }

  /** Lines 103-117: the network mappings, then the router mappings. */
  function CheckAllMappings(doc: Json, hosts: set<Key>, routers: set<Key>, networks: set<Key>)
    : (r: Verdict<ProvisioningViolation>)
    requires KeysPresent(doc)
    ensures r != Skip
  {
    RequiredKeysPresent(doc);
    var netCheck := CheckMappingList(doc, "net_mappings", "host", hosts, networks);
    if netCheck.Some? then Fail(netCheck.value)
    else
      var routerCheck := CheckMappingList(doc, "router_mappings", "router", routers, networks);
      if routerCheck.Some? then Fail(routerCheck.value)
      else Pass
  }

  /** `test_provisioning_topologies`: skipped exactly when the file is
      absent, and otherwise the check of the loaded document, which never
      skips. */
  function ValidateProvisioning(f: TopologyFile): (r: Verdict<ProvisioningViolation>)
    ensures r == Skip <==> f.Absent?
  {
    match f
    case Absent => Skip
    case Present(doc) => CheckDocument(doc)
  }

  // ---------------------------------------------------------------------
  // What the set-size test and the membership tests mean.

  /** Two entries named by timestamps that spell one instant in different
      zones share a name, just as the set at line 95 holds one element. */
  lemma SameInstantNamesCollide(local: int, offset: int, shift: int)
    ensures !UniquelyNamed([JObject([Entry("name", JTimestamp(Aware(local, offset)))]),
                            JObject([Entry("name", JTimestamp(Aware(local + shift, offset + shift)))])])
  {
    var h1 := JObject([Entry("name", JTimestamp(Aware(local, offset)))]);
    var h2 := JObject([Entry("name", JTimestamp(Aware(local + shift, offset + shift)))]);
    assert NameOf(h1) == Some(KInstant(local - offset)) == NameOf(h2);
    assert [h1, h2][0] == h1 && [h1, h2][1] == h2;
  }

  /** The set-size test on a list of entries succeeds exactly when no two
      entries share a name. */
  lemma SetSizeTestIffUniquelyNamed(listed: Json, names: seq<Key>)
    requires Iterate(listed).Some?
    requires Names(Iterate(listed).value) == Some(names)
    ensures SetSizeTest(names, listed) <==> UniquelyNamed(Iterate(listed).value)
  {
    var es := Iterate(listed).value;
    LenCountsIteration(listed);
    SetSizeMatchesIffDistinct(names);
    assert Distinct(names) <==> forall i, j :: 0 <= i < j < |es| ==> NameOf(es[i]) != NameOf(es[j]);
  }

  /** A name is in the set built from the entries' names exactly when some
      entry bears it. */
  lemma InNameSetIffNamed(entries: seq<Json>, names: seq<Key>, k: Key)
    requires Names(entries) == Some(names)
    ensures k in Elements(names) <==> exists e :: e in entries && NameOf(e) == Some(k)
  {
    if k in Elements(names) {
      var i :| 0 <= i < |names| && names[i] == k;
      assert entries[i] in entries && NameOf(entries[i]) == Some(k);
    }
    if exists e :: e in entries && NameOf(e) == Some(k) {
      var e :| e in entries && NameOf(e) == Some(k);
      var i :| 0 <= i < |entries| && entries[i] == e;
      assert names[i] == k;
    }
  }

  /** `mapping[field] in set(names)` holds exactly when the mapping refers
      to one of the named entries. */
  lemma ResolvesIffRefersTo(m: Json, field: string, entries: seq<Json>, names: seq<Key>)
    requires Names(entries) == Some(names)
    ensures Resolves(m, field, Elements(names)) <==> RefersTo(m, field, entries)
  {
    if HasKey(m, field) && AsKey(Item(m, field)).Some? {
      InNameSetIffNamed(entries, names, AsKey(Item(m, field)).value);
    }
  }

  /** Collecting the names of one kind succeeds exactly when its list is
      iterable and every entry is named, and then the set-size test holds
      exactly when the entities of that kind conform. */
  lemma EntityNamesMeaning(doc: Json, kind: Entity)
    requires HasKey(doc, ListKey(kind))
    ensures EntityNames(doc, kind).Ok? <==>
      Iterate(Item(doc, ListKey(kind))).Some? && forall e :: e in Listed(doc, ListKey(kind)) ==> NameOf(e).Some?
    ensures EntityNames(doc, kind).Ok? ==>
      && Names(Listed(doc, ListKey(kind))) == Some(EntityNames(doc, kind).value)
      && (SetSizeTest(EntityNames(doc, kind).value, Item(doc, ListKey(kind))) <==> EntitiesConform(doc, kind))
    ensures EntityNames(doc, kind).Err? ==> !EntitiesConform(doc, kind)
  {
    var listed := Item(doc, ListKey(kind));
    assert GetOr(doc, ListKey(kind), JNull) == listed;
    if EntityNames(doc, kind).Ok? {
      SetSizeTestIffUniquelyNamed(listed, EntityNames(doc, kind).value);
    }
  }

  /** One mapping list passes exactly when it is iterable and each of its
      mappings refers to a declared entity and a declared network. */
  lemma MappingListMeaning(doc: Json, list: string, field: string, entities: string,
                           names: seq<Key>, netNames: seq<Key>)
    requires HasKey(doc, list)
    requires Names(Listed(doc, entities)) == Some(names) && Names(Listed(doc, "networks")) == Some(netNames)
    ensures CheckMappingList(doc, list, field, Elements(names), Elements(netNames)).None? <==>
      MappingsConform(doc, list, field, entities)
  {
    assert GetOr(doc, list, JNull) == Item(doc, list);
    forall m | m in Listed(doc, list)
      ensures Resolves(m, field, Elements(names)) <==> RefersTo(m, field, Listed(doc, entities))
      ensures Resolves(m, "network", Elements(netNames)) <==> RefersTo(m, "network", Listed(doc, "networks"))
    {
      ResolvesIffRefersTo(m, field, Listed(doc, entities), names);
      ResolvesIffRefersTo(m, "network", Listed(doc, "networks"), netNames);
    }
  }

  /** With names collected for every kind and no duplicates, the mapping
      checks pass exactly when both mapping lists conform. */
  lemma CheckAllMappingsPassIff(doc: Json, hosts: seq<Key>, routers: seq<Key>, networks: seq<Key>)
    requires KeysPresent(doc)
    requires Names(Listed(doc, "hosts")) == Some(hosts)
    requires Names(Listed(doc, "routers")) == Some(routers)
    requires Names(Listed(doc, "networks")) == Some(networks)
    ensures CheckAllMappings(doc, Elements(hosts), Elements(routers), Elements(networks)) == Pass <==>
      MappingsConform(doc, "net_mappings", "host", "hosts") && MappingsConform(doc, "router_mappings", "router", "routers")
  {
    RequiredKeysPresent(doc);
    var netCheck := CheckMappingList(doc, "net_mappings", "host", Elements(hosts), Elements(networks));
    var routerCheck := CheckMappingList(doc, "router_mappings", "router", Elements(routers), Elements(networks));
    assert netCheck.None? <==> MappingsConform(doc, "net_mappings", "host", "hosts") by {
      MappingListMeaning(doc, "net_mappings", "host", "hosts", hosts, networks);
    }
    assert routerCheck.None? <==> MappingsConform(doc, "router_mappings", "router", "routers") by {
      MappingListMeaning(doc, "router_mappings", "router", "routers", routers, networks);
    }
  }

  /** Once the required keys are present, the rest of the check passes
      exactly when the document conforms. */
  lemma CheckEntitiesPassIff(doc: Json)
    requires KeysPresent(doc)
    ensures CheckEntities(doc) == Pass <==> ProvisioningConforms(doc)
  {
    var h, r, n := EntityNames(doc, Host), EntityNames(doc, Router), EntityNames(doc, Network);
    if h.Err? {
      assert !EntitiesConform(doc, Host) by { EntityNamesMeaning(doc, Host); }
    } else if r.Err? {
      assert !EntitiesConform(doc, Router) by { EntityNamesMeaning(doc, Router); }
    } else if n.Err? {
      assert !EntitiesConform(doc, Network) by { EntityNamesMeaning(doc, Network); }
    } else {
      var hosts, routers, networks := h.value, r.value, n.value;
      assert Names(Listed(doc, "hosts")) == Some(hosts)
        && (SetSizeTest(hosts, Item(doc, "hosts")) <==> EntitiesConform(doc, Host))
        by { EntityNamesMeaning(doc, Host); }
      assert Names(Listed(doc, "routers")) == Some(routers)
        && (SetSizeTest(routers, Item(doc, "routers")) <==> EntitiesConform(doc, Router))
        by { EntityNamesMeaning(doc, Router); }
      assert Names(Listed(doc, "networks")) == Some(networks)
        && (SetSizeTest(networks, Item(doc, "networks")) <==> EntitiesConform(doc, Network))
        by { EntityNamesMeaning(doc, Network); }
      CheckAllMappingsPassIff(doc, hosts, routers, networks);
    }
  }

  /** The provisioning check passes exactly when the topology file is
      present and conforms: all six keys, uniquely named hosts, routers and
      networks, and every mapping resolved to declared entities. */
  lemma ValidateProvisioningPassIff(f: TopologyFile)
    ensures ValidateProvisioning(f) == Pass <==> f.Present? && ProvisioningConforms(f.doc)
  {
    if f.Present? && f.doc.JObject? && FirstMissing(f.doc, RequiredKeys).None? {
      CheckEntitiesPassIff(f.doc);
    }
  }

  /** Two hosts sharing a name make the check fail on the hosts, once every
      kind's names could be collected. */
  lemma DuplicateHostNamesReported(doc: Json, i: nat, j: nat)
    requires doc.JObject? && KeysPresent(doc)
    requires EntityNames(doc, Host).Ok? && EntityNames(doc, Router).Ok? && EntityNames(doc, Network).Ok?
    requires i < j < |Listed(doc, "hosts")|
    requires NameOf(Listed(doc, "hosts")[i]) == NameOf(Listed(doc, "hosts")[j])
    ensures ValidateProvisioning(Present(doc)) == Fail(DuplicateNames(Host))
  {
    RequiredKeysPresent(doc);
    var hosts := EntityNames(doc, Host).value;
    assert !UniquelyNamed(Listed(doc, "hosts"));
    assert !SetSizeTest(hosts, Item(doc, "hosts")) by { EntityNamesMeaning(doc, Host); }
    assert CheckEntities(doc) == Fail(DuplicateNames(Host));
    assert FirstMissing(doc, RequiredKeys).None?;
  }
}

=== FILE: pyvalues.dfy ===
/** Parsed JSON/YAML documents as the validators see them, with the few
    Python operations the validators apply to them: truthiness, `str.strip`,
    `key in mapping`, `mapping[key]`, `mapping.get`, iteration and hashing. */
module PyValues {
  import opened Verdicts

  /** A parsed document. Mappings keep their entries in document order and
      have string keys; floats are modelled as reals. A YAML date or
      timestamp scalar loads as a `date` or `datetime` object: it is truthy
      and hashable, and it is not a string, not iterable and has neither
      `strip` nor `get`. */
  datatype Json =
    | JNull
    | JBool(b: bool)
    | JInt(i: int)
    | JFloat(x: real)
    | JStr(s: string)
    | JList(items: seq<Json>)
    | JObject(entries: seq<Entry>)
    | JTimestamp(t: Timestamp)

  /** The object a YAML timestamp loads as, not its spelling: a date-only
      scalar gives a `date`, and one with a time gives a `datetime`, which
      is timezone-aware exactly when the scalar carries a zone. Days count
      from 0001-01-01, and microseconds from its midnight. */
  datatype Timestamp =
    | Date(day: int)
    | Naive(micros: int)
    /** local time and the zone's offset from UTC, both in microseconds */
    | Aware(local: int, offset: int)

  datatype Entry = Entry(key: string, value: Json)

  /** Python truthiness: None, False, zero and empty containers are false. */
  predicate Truthy(v: Json) {
    match v
    case JNull => false
    case JBool(b) => b
    case JInt(i) => i != 0
    case JFloat(x) => x != 0.0
    case JStr(s) => |s| > 0
    case JList(xs) => |xs| > 0
    case JObject(es) => |es| > 0
    case JTimestamp(_) => true
  }

  /** The characters Python's `str.isspace` accepts, which `str.strip()`
      removes from both ends. */
  predicate IsSpace(c: char) {
    || c == ' '
    || ('\t' <= c <= '\r')
    || ('\U{1C}' <= c <= '\U{1F}')
    || c == '\U{85}'
    || c == '\U{A0}'
    || c == '\U{1680}'
    || ('\U{2000}' <= c <= '\U{200A}')
    || c == '\U{2028}'
    || c == '\U{2029}'
    || c == '\U{202F}'
    || c == '\U{205F}'
    || c == '\U{3000}'
  }

  /** `s.lstrip()`: the suffix left after dropping leading whitespace. */
  function StripLeft(s: string): (r: string)
    ensures |r| <= |s| && r == s[|s| - |r|..]
    ensures forall i :: 0 <= i < |s| - |r| ==> IsSpace(s[i])
    ensures |r| > 0 ==> !IsSpace(r[0])
  {
    if |s| > 0 && IsSpace(s[0]) then
      var r := StripLeft(s[1..]);
      assert s[1..][|s| - 1 - |r|..] == s[|s| - |r|..];
      assert forall i :: 1 <= i < |s| - |r| ==> s[i] == s[1..][i - 1];
      r
    else s
  }

  /** `s.rstrip()`: the prefix left after dropping trailing whitespace. */
  function StripRight(s: string): (r: string)
    ensures |r| <= |s| && r == s[..|r|]
    ensures forall i :: |r| <= i < |s| ==> IsSpace(s[i])
    ensures |r| > 0 ==> !IsSpace(r[|r| - 1])
  {
    if |s| > 0 && IsSpace(s[|s| - 1]) then
      var r := StripRight(s[..|s| - 1]);
      assert s[..|s| - 1][..|r|] == s[..|r|];
      assert forall i :: |r| <= i < |s| - 1 ==> s[i] == s[..|s| - 1][i];
      r
    else s
  }

  /** `s.strip()` */
  function Strip(s: string): string {
    StripRight(StripLeft(s))
  }

  /** Some character of `s` is not whitespace. */
  predicate HasNonSpace(s: string) {
    exists i :: 0 <= i < |s| && !IsSpace(s[i])
  }

  /** `s.strip()` is truthy exactly when `s` holds a non-whitespace character. */
  lemma StripNonEmptyIffNonSpace(s: string)
    ensures |Strip(s)| > 0 <==> HasNonSpace(s)
  {
    var l := StripLeft(s);
    var r := StripRight(l);
    if HasNonSpace(s) {
      var i :| 0 <= i < |s| && !IsSpace(s[i]);
      assert |l| > 0 && !IsSpace(l[0]);
    }
    if |r| > 0 {
      assert !IsSpace(l[0]) && l[0] == s[|s| - |l|];
    }
  }

  /** `v.strip()` succeeds and is truthy: `v` is a string that is not blank
      (see StripNonEmptyIffNonSpace). Calling `strip` on anything else
      raises, which fails the check too. */
  predicate NonBlankStr(v: Json) {
    v.JStr? && HasNonSpace(v.s)
  }

  /** The value stored under `key`, taking the first entry that has it. */
  function Lookup(es: seq<Entry>, key: string): (r: Option<Json>)
    ensures r.None? <==> forall i :: 0 <= i < |es| ==> es[i].key != key
    ensures r.Some? ==> exists i :: 0 <= i < |es| && es[i] == Entry(key, r.value)
  {
    if |es| == 0 then None
    else if es[0].key == key then Some(es[0].value)
    else Lookup(es[1..], key)
  }

  /** `v[key]` for a string key: defined only on a mapping that holds the
      key (a list or string subscripted by a string raises). */
  function Get(v: Json, key: string): Option<Json> {
    if v.JObject? then Lookup(v.entries, key) else None
  }

  /** `key in v` for a mapping `v`. */
  predicate HasKey(v: Json, key: string) {
    Get(v, key).Some?
  }

  /** `v[key]` once the key is known to be present. */
  function Item(v: Json, key: string): Json
    requires HasKey(v, key)
  {
    Get(v, key).value
  }

  /** `v.get(key, default)` on a mapping. */
  function GetOr(v: Json, key: string, default: Json): Json {
    match Get(v, key)
    case Some(x) => x
    case None => default
  }

  /** `keys[i]` is absent from `v`, and every key before it is present. */
  ghost predicate FirstAbsentAt(v: Json, keys: seq<string>, i: int) {
    0 <= i < |keys| && !HasKey(v, keys[i]) && forall j :: 0 <= j < i ==> HasKey(v, keys[j])
  }

  /** The first of `keys` that the mapping `v` lacks, if any. */
  function FirstMissing(v: Json, keys: seq<string>): (r: Option<string>)
    ensures r.None? <==> forall k :: k in keys ==> HasKey(v, k)
    ensures r.Some? ==> r.value in keys && !HasKey(v, r.value)
    ensures r.Some? ==> exists i :: FirstAbsentAt(v, keys, i) && keys[i] == r.value
  {
    if |keys| == 0 then None
    else if !HasKey(v, keys[0]) then
      assert FirstAbsentAt(v, keys, 0);
      Some(keys[0])
    else
      var r := FirstMissing(v, keys[1..]);
      assert forall k :: k in keys <==> k == keys[0] || k in keys[1..];
      assert forall i :: FirstAbsentAt(v, keys[1..], i) ==> FirstAbsentAt(v, keys, i + 1);
      r
  }

  /** One character as a Python string. */
  function CharStr(c: char): Json {
    JStr([c])
  }

  /** One mapping key as a Python string. */
  function KeyStr(e: Entry): Json {
    JStr(e.key)
  }

  /** What `for x in v` visits: the items of a list, the keys of a mapping,
      the characters of a string. Anything else is not iterable. */
  function Iterate(v: Json): Option<seq<Json>> {
    match v
    case JList(xs) => Some(xs)
    case JObject(es) => Some(seq(|es|, i requires 0 <= i < |es| => KeyStr(es[i])))
    case JStr(s) => Some(seq(|s|, i requires 0 <= i < |s| => CharStr(s[i])))
    case _ => None
  }

  /** `len(v)`, defined on lists, mappings and strings. */
  function Len(v: Json): Option<nat> {
    match v
    case JList(xs) => Some(|xs|)
    case JObject(es) => Some(|es|)
    case JStr(s) => Some(|s|)
    case _ => None
  }

  /** `len(v)` counts exactly the elements `for x in v` visits. */
  lemma LenCountsIteration(v: Json)
    ensures Len(v).Some? <==> Iterate(v).Some?
    ensures Len(v).Some? ==> Len(v).value == |Iterate(v).value|
  {
  }

  /** A hashable value as a set element or mapping key. Python's numeric
      equality makes `True`, `1` and `1.0` the same element; aware datetimes
      are the same element when they denote the same instant, while a date,
      a naive datetime and an aware datetime never equal one another. */
  datatype Key = KNone | KNum(n: real) | KStr(s: string) | KDate(day: int) | KNaive(micros: int) | KInstant(utc: int)

  /** `hash(v)` succeeds (lists and mappings are unhashable) and yields
      the element `v` stands for in a set. */
  function AsKey(v: Json): (r: Option<Key>)
    ensures r.None? <==> v.JList? || v.JObject?
    ensures r.Some? && v.JStr? ==> r.value == KStr(v.s)
  {
    match v
    case JNull => Some(KNone)
    case JBool(b) => Some(KNum(if b then 1.0 else 0.0))
    case JInt(i) => Some(KNum(i as real))
    case JFloat(x) => Some(KNum(x))
    case JStr(s) => Some(KStr(s))
    case JTimestamp(Date(d)) => Some(KDate(d))
    case JTimestamp(Naive(m)) => Some(KNaive(m))
    case JTimestamp(Aware(m, o)) => Some(KInstant(m - o))
    case _ => None
  }

  /** Two hashable scalars share a key exactly when Python's `==` holds
      between them: booleans and integers and floats by numeric value,
      strings by content, dates by day, naive datetimes by their reading and
      aware datetimes by the instant, never across those kinds of value. */
  lemma KeysFollowPythonEquality(b: bool, i: int, x: real, s: string, t1: Timestamp, t2: Timestamp)
    ensures AsKey(JBool(b)) == AsKey(JInt(i)) <==> i == (if b then 1 else 0)
    ensures AsKey(JInt(i)) == AsKey(JFloat(x)) <==> x == i as real
    ensures AsKey(JBool(true)) == AsKey(JInt(1)) == AsKey(JFloat(1.0))
    ensures AsKey(JNull) != AsKey(JBool(b)) && AsKey(JNull) != AsKey(JInt(i)) && AsKey(JNull) != AsKey(JFloat(x))
    ensures AsKey(JStr(s)) != AsKey(JInt(i)) && AsKey(JStr(s)) != AsKey(JNull)
    ensures AsKey(JStr(s)) != AsKey(JFloat(x)) && AsKey(JStr(s)) != AsKey(JBool(b))
    ensures AsKey(JTimestamp(t1)) != AsKey(JStr(s)) && AsKey(JTimestamp(t1)) != AsKey(JFloat(x))
    ensures AsKey(JTimestamp(t1)) != AsKey(JInt(i)) && AsKey(JTimestamp(t1)) != AsKey(JBool(b))
    ensures AsKey(JTimestamp(t1)) != AsKey(JNull)
    ensures AsKey(JTimestamp(t1)) == AsKey(JTimestamp(t2)) <==>
      match (t1, t2)
      case (Date(d1), Date(d2)) => d1 == d2
      case (Naive(m1), Naive(m2)) => m1 == m2
      case (Aware(m1, o1), Aware(m2, o2)) => m1 - o1 == m2 - o2
      case _ => false
  {
  }

  /** A bool, int or float: the values Python compares by number. */
  predicate IsNumber(v: Json) {
    v.JBool? || v.JInt? || v.JFloat?
  }

  /** The number a bool, int or float stands for. */
  function NumberOf(v: Json): real
    requires IsNumber(v)
  {
    if v.JBool? then (if v.b then 1.0 else 0.0)
    else if v.JInt? then v.i as real
    else v.x
  }

  /** Python's `a == b` between two hashable scalars: numbers by value,
      whatever their types; None only with None; strings by content; dates
      by day, naive datetimes by their reading and aware datetimes by the
      instant; and nothing across those groups. */
  ghost predicate PyEquals(a: Json, b: Json) {
    if IsNumber(a) || IsNumber(b) then IsNumber(a) && IsNumber(b) && NumberOf(a) == NumberOf(b)
    else match (a, b)
      case (JNull, JNull) => true
      case (JStr(s1), JStr(s2)) => s1 == s2
      case (JTimestamp(Date(d1)), JTimestamp(Date(d2))) => d1 == d2
      case (JTimestamp(Naive(m1)), JTimestamp(Naive(m2))) => m1 == m2
      case (JTimestamp(Aware(m1, o1)), JTimestamp(Aware(m2, o2))) => m1 - o1 == m2 - o2
      case _ => false
  }

  /** Any two hashable values are the same set element exactly when Python's
      `==` holds between them. */
  lemma SameKeyIffPyEquals(a: Json, b: Json)
    requires AsKey(a).Some? && AsKey(b).Some?
    ensures AsKey(a) == AsKey(b) <==> PyEquals(a, b)
  {
  }
}

=== FILE: sequences.dfy ===
/** Facts about sequences that the validators rely on: distinctness as the
    set-size test states it, distinctness as multiplicities state it, and
    flattening a sequence of groups. */
module Sequences {

  /** No two positions hold the same element. */
  ghost predicate Distinct<T>(s: seq<T>) {
    forall i, j :: 0 <= i < j < |s| ==> s[i] != s[j]
  }

  /** `set(s)` in Python: the elements of `s` without repetition. */
  function Elements<T>(s: seq<T>): set<T> {
    set x | x in s
  }

  /** The set built from a sequence is never larger than the sequence, and
      it is exactly as large when, and only when, no element repeats. This
      is what turns `len(set(names)) == len(names)` into "names are unique". */
  lemma {:induction false} SetSizeMatchesIffDistinct<T>(s: seq<T>)
    ensures |Elements(s)| <= |s|
    ensures |Elements(s)| == |s| <==> Distinct(s)
  {
    if |s| > 0 {
      var t := s[1..];
      SetSizeMatchesIffDistinct(t);
      assert Elements(s) == {s[0]} + Elements(t);
      if s[0] in t {
        var j :| 0 <= j < |t| && t[j] == s[0];
        assert s[j + 1] == s[0];
        assert Elements(s) == Elements(t);
      } else {
        assert s[0] !in Elements(t);
        DistinctCons(s);
      }
    }
  }

  /** A sequence whose head does not recur is distinct iff its tail is. */
  lemma DistinctCons<T>(s: seq<T>)
    requires |s| > 0 && s[0] !in s[1..]
    ensures Distinct(s) <==> Distinct(s[1..])
  {
    var t := s[1..];
    if Distinct(t) {
      forall i, j | 0 <= i < j < |s| ensures s[i] != s[j] {
        if i == 0 {
          assert s[j] == t[j - 1];
        } else {
          assert s[i] == t[i - 1] && s[j] == t[j - 1];
        }
      }
    }
    if Distinct(s) {
      forall i, j | 0 <= i < j < |t| ensures t[i] != t[j] {
        assert t[i] == s[i + 1] && t[j] == s[j + 1];
      }
    }
  }

  /** Distinctness stated through the multiset of a sequence: every element
      occurs at most once. */
  lemma {:induction false} DistinctIffSingleOccurrences<T>(s: seq<T>)
    ensures Distinct(s) <==> forall x :: multiset(s)[x] <= 1
  {
    if Distinct(s) {
      DistinctHasSingleOccurrences(s);
    }
    if !Distinct(s) {
      var i, j :| 0 <= i < j < |s| && s[i] == s[j];
      assert s == s[..j] + s[j..];
      assert s[i] == s[..j][i];
      assert s[j] == s[j..][0];
      assert multiset(s)[s[i]] == multiset(s[..j])[s[i]] + multiset(s[j..])[s[i]];
    }
  }

  lemma {:induction false} DistinctHasSingleOccurrences<T>(s: seq<T>)
    requires Distinct(s)
    ensures forall x :: multiset(s)[x] <= 1
  {
    if |s| > 0 {
      var t := s[1..];
      assert s == [s[0]] + t;
      assert Distinct(t) by {
        forall i, j | 0 <= i < j < |t| ensures t[i] != t[j] {
          assert t[i] == s[i + 1] && t[j] == s[j + 1];
        }
      }
      DistinctHasSingleOccurrences(t);
      forall k | 0 <= k < |t| ensures t[k] != s[0] {
        assert t[k] == s[k + 1];
      }
      assert multiset(t)[s[0]] == 0;
      forall x ensures multiset(s)[x] <= 1 {
        assert multiset(s)[x] == multiset{s[0]}[x] + multiset(t)[x];
      }
    }
  }

  /** The concatenation of `f(x)` over the elements `x` of `xs`, in order. */
  function FlatMap<T, U>(xs: seq<T>, f: T -> seq<U>): seq<U> {
    if |xs| == 0 then [] else f(xs[0]) + FlatMap(xs[1..], f)
  }

  lemma {:induction false} FlatMapAppend<T, U>(xs: seq<T>, ys: seq<T>, f: T -> seq<U>)
    ensures FlatMap(xs + ys, f) == FlatMap(xs, f) + FlatMap(ys, f)
  {
    if |xs| > 0 {
      assert (xs + ys)[1..] == xs[1..] + ys;
      FlatMapAppend(xs[1..], ys, f);
    } else {
      assert xs + ys == ys;
    }
  }

  /** Flattening does not care about the order of the groups: permuting the
      groups permutes the flattened elements. */
  lemma {:induction false} FlatMapPermutation<T, U>(xs: seq<T>, ys: seq<T>, f: T -> seq<U>)
    requires multiset(xs) == multiset(ys)
    ensures multiset(FlatMap(xs, f)) == multiset(FlatMap(ys, f))
  {
    if |xs| == 0 {
      assert |ys| == |multiset(ys)| == 0;
    } else {
      var x := xs[0];
      var before, after := SplitAround(ys, x);
      RemoveOne(before, x, after);
      HeadAndTail(xs);
      FlatMapPermutation(xs[1..], before + after, f);
      FlatMapAround(before, x, after, f);
    }
  }

  /** Taking one group out of the middle takes its elements out of the
      flattened multiset. */
  lemma FlatMapAround<T, U>(before: seq<T>, x: T, after: seq<T>, f: T -> seq<U>)
    ensures multiset(FlatMap(before + [x] + after, f))
         == multiset(f(x)) + multiset(FlatMap(before + after, f))
  {
    FlatMapAppend(before, after, f);
    FlatMapAppend(before, [x], f);
    FlatMapAppend(before + [x], after, f);
    assert FlatMap([x], f) == f(x);
  }

  /** An element of `ys` splits it into the part before an occurrence and
      the part after it. */
  lemma SplitAround<T>(ys: seq<T>, x: T) returns (before: seq<T>, after: seq<T>)
    requires x in multiset(ys)
    ensures ys == before + [x] + after
  {
    var j :| 0 <= j < |ys| && ys[j] == x;
    before, after := ys[..j], ys[j + 1..];
    assert ys == before + [x] + after;
  }

  /** The head of a non-empty sequence and the multiset of its tail make up
      its multiset. */
  lemma HeadAndTail<T>(a: seq<T>)
    requires |a| > 0
    ensures multiset(a[1..]) == multiset(a) - multiset{a[0]}
  {
    assert a == [a[0]] + a[1..];
  }

  /** Removing one element removes one occurrence from the multiset. */
  lemma RemoveOne<T>(before: seq<T>, x: T, after: seq<T>)
    ensures multiset(before + after) == multiset(before + [x] + after) - multiset{x}
  {
  }
}

=== FILE: steporder.dfy ===
/** The curriculum's step test: `sorted(steps) == list(range(1, len(steps) + 1))`,
    and what it means — the steps are a permutation of 1..N. */
module StepOrder {
  import opened Sequences

  /** Ascending order, duplicates allowed. */
  ghost predicate SortedAsc(s: seq<int>) {
    forall i, j :: 0 <= i < j < |s| ==> s[i] <= s[j]
  }

  /** Insert `x` into an ascending sequence. */
  function Insert(x: int, s: seq<int>): (r: seq<int>)
    requires SortedAsc(s)
    ensures SortedAsc(r)
    ensures multiset(r) == multiset(s) + multiset{x}
  {
    if |s| == 0 then [x]
    else if x <= s[0] then [x] + s
    else
      SortedTail(s);
      var tail := Insert(x, s[1..]);
      HeadAndTail(s);
      LowerBound(s[0], x, s[1..], tail);
      SortedCons(s[0], tail);
      [s[0]] + tail
  }

  /** A bound below `x` and every element of `s` stays below every element
      of a sequence holding `s` and `x`. */
  lemma LowerBound(lo: int, x: int, s: seq<int>, t: seq<int>)
    requires lo <= x && forall i :: 0 <= i < |s| ==> lo <= s[i]
    requires multiset(t) == multiset(s) + multiset{x}
    ensures forall k :: 0 <= k < |t| ==> lo <= t[k]
  {
    forall k | 0 <= k < |t| ensures lo <= t[k] {
      assert t[k] in multiset(s) + multiset{x};
      if t[k] != x {
        assert t[k] in s;
      }
    }
  }

  /** Putting a lower bound in front of an ascending sequence keeps it ascending. */
  lemma SortedCons(v: int, t: seq<int>)
    requires SortedAsc(t) && forall k :: 0 <= k < |t| ==> v <= t[k]
    ensures SortedAsc([v] + t)
  {
    forall i, j | 0 <= i < j < |t| + 1 ensures ([v] + t)[i] <= ([v] + t)[j] {
      if i > 0 {
        assert ([v] + t)[i] == t[i - 1];
      }
    }
  }

  /** Python's `sorted` on integers: the ascending arrangement of `s`. */
  function Sort(s: seq<int>): (r: seq<int>)
    ensures SortedAsc(r)
    ensures multiset(r) == multiset(s)
  {
    if |s| == 0 then []
    else
      assert s == [s[0]] + s[1..];
      Insert(s[0], Sort(s[1..]))
  }

  /** `list(range(1, n + 1))` */
  function OneTo(n: nat): seq<int> {
    seq(n, i => i + 1)
  }

  /** The Python test's check: sorting the steps gives exactly 1, 2, ..., N where N
      is the number of steps. */
  predicate StepsSequential(steps: seq<int>) {
    Sort(steps) == OneTo(|steps|)
  }

  /** The meaning of the test: no step repeats and every step lies in 1..N,
      so each of 1..N is the step of exactly one activity. */
  ghost predicate PermutationOfOneToN(steps: seq<int>) {
    && Distinct(steps)
    && forall i :: 0 <= i < |steps| ==> 1 <= steps[i] <= |steps|
  }

  /** The tail of an ascending sequence is ascending. */
  lemma SortedTail(a: seq<int>)
    requires |a| > 0 && SortedAsc(a)
    ensures SortedAsc(a[1..])
  {
    forall i, j | 0 <= i < j < |a| - 1 ensures a[1..][i] <= a[1..][j] {
      assert a[1..][i] == a[i + 1] && a[1..][j] == a[j + 1];
    }
  }

  /** Ascending sequences with the same elements start with the same
      (least) element. */
  lemma SameHead(a: seq<int>, b: seq<int>)
    requires SortedAsc(a) && SortedAsc(b)
    requires multiset(a) == multiset(b)
    requires |a| > 0 && |b| > 0
    ensures a[0] == b[0]
  {
    assert a[0] in multiset(b) && b[0] in multiset(a);
    var j :| 0 <= j < |b| && b[j] == a[0];
    var k :| 0 <= k < |a| && a[k] == b[0];
    assert b[0] <= b[j] && a[0] <= a[k];
  }

  /** Two ascending sequences with the same elements are equal: the sorted
      arrangement of a multiset is unique. */
  lemma {:induction false} SortedUnique(a: seq<int>, b: seq<int>)
    requires SortedAsc(a) && SortedAsc(b)
    requires multiset(a) == multiset(b)
    ensures a == b
  {
    if |a| == 0 {
      assert |b| == |multiset(b)| == 0;
    } else {
      assert |b| == |multiset(b)| == |multiset(a)| == |a|;
      SameHead(a, b);
      HeadAndTail(a);
      HeadAndTail(b);
      SortedTail(a);
      SortedTail(b);
      SortedUnique(a[1..], b[1..]);
      SameHeadSameTail(a, b);
    }
  }

  /** Sequences agreeing on head and tail are equal. */
  lemma SameHeadSameTail(a: seq<int>, b: seq<int>)
    requires |a| > 0 && |b| > 0
    requires a[0] == b[0] && a[1..] == b[1..]
    ensures a == b
  {
    assert a == [a[0]] + a[1..] && b == [b[0]] + b[1..];
  }

  /** The Python test's sorted-equals-range check holds exactly when the steps and
      1..N are the same multiset. */
  lemma StepsSequentialIffSameMultiset(steps: seq<int>)
    ensures StepsSequential(steps) <==> multiset(steps) == multiset(OneTo(|steps|))
  {
    if multiset(steps) == multiset(OneTo(|steps|)) {
      SortedUnique(Sort(steps), OneTo(|steps|));
    }
  }

  /** Only the multiset of steps matters: reordering them, in particular by
      reordering the phases or activities they come from, keeps the verdict. */
  lemma StepsSequentialIgnoresOrder(a: seq<int>, b: seq<int>)
    requires multiset(a) == multiset(b)
    ensures StepsSequential(a) <==> StepsSequential(b)
  {
    assert |a| == |multiset(a)| == |multiset(b)| == |b|;
    StepsSequentialIffSameMultiset(a);
    StepsSequentialIffSameMultiset(b);
  }

  /** In a strictly increasing sequence, values grow at least as fast as
      positions. */
  lemma {:induction false} StrictGap(r: seq<int>, i: nat, j: nat)
    requires forall p, q :: 0 <= p < q < |r| ==> r[p] < r[q]
    requires i <= j < |r|
    ensures r[j] - r[i] >= j - i
  {
    if i < j {
      StrictGap(r, i, j - 1);
    }
  }

  /** A strictly increasing sequence of N values drawn from 1..N is 1..N. */
  lemma StrictlyIncreasingFillsRange(r: seq<int>)
    requires forall p, q :: 0 <= p < q < |r| ==> r[p] < r[q]
    requires forall i :: 0 <= i < |r| ==> 1 <= r[i] <= |r|
    ensures r == OneTo(|r|)
  {
    forall i | 0 <= i < |r| ensures r[i] == i + 1 {
      StrictGap(r, 0, i);
      StrictGap(r, i, |r| - 1);
    }
  }

  /** A sequence passing the step test repeats no step and stays in 1..N. */
  lemma SequentialMeansPermutation(steps: seq<int>)
    requires StepsSequential(steps)
    ensures PermutationOfOneToN(steps)
  {
    var n := |steps|;
    StepsSequentialIffSameMultiset(steps);
    assert Distinct(OneTo(n));
    DistinctIffSingleOccurrences(OneTo(n));
    DistinctIffSingleOccurrences(steps);
    forall i | 0 <= i < n ensures 1 <= steps[i] <= n {
      assert steps[i] in multiset(OneTo(n));
    }
  }

  /** A permutation of 1..N passes the step test: sorted, it climbs by one
      from 1 to N. */
  lemma PermutationMeansSequential(steps: seq<int>)
    requires PermutationOfOneToN(steps)
    ensures StepsSequential(steps)
  {
    var n := |steps|;
    var r := Sort(steps);
    DistinctIffSingleOccurrences(steps);
    DistinctIffSingleOccurrences(r);
    assert |r| == |multiset(r)| == n;
    forall p, q | 0 <= p < q < |r| ensures r[p] < r[q] {
      assert r[p] <= r[q];
    }
    forall i | 0 <= i < |r| ensures 1 <= r[i] <= n {
      assert r[i] in multiset(steps);
    }
    StrictlyIncreasingFillsRange(r);
  }

  /** The step test accepts exactly the permutations of 1..N: no duplicate,
      no gap, nothing below 1 and nothing above N. */
  lemma StepsSequentialIffPermutation(steps: seq<int>)
    ensures StepsSequential(steps) <==> PermutationOfOneToN(steps)
  {
    if StepsSequential(steps) {
      SequentialMeansPermutation(steps);
    }
    if PermutationOfOneToN(steps) {
      PermutationMeansSequential(steps);
    }
  }

  /** Whether steps are a permutation of 1..N depends only on their multiset. */
  lemma PermutationIgnoresOrder(a: seq<int>, b: seq<int>)
    requires multiset(a) == multiset(b)
    ensures PermutationOfOneToN(a) <==> PermutationOfOneToN(b)
  {
    StepsSequentialIffPermutation(a);
    StepsSequentialIffPermutation(b);
    StepsSequentialIgnoresOrder(a, b);
  }
}

=== FILE: taskorder.dfy ===
/** The ordering check on the reporting-workspace role's task list in
    tests/test_validation.py: the first "Configure Grafana repositories" task
    must come before the first "Install Grafana package" task. */
module TaskOrder {
  import opened Verdicts
  import opened PyValues

  const RepoTask: string := "Configure Grafana repositories"
  const InstallTask: string := "Install Grafana package"

  datatype TaskOrderViolation =
    /** the task list cannot be enumerated */
    | TasksNotIterable
    /** some task is not a mapping (`task.get` raises) */
    | TaskNotAMapping
    /** no task configures the repositories */
    | RepoTaskMissing
    /** no task installs the package (`next` raises `StopIteration`) */
    | InstallTaskMissing
    /** the first repository task comes at or after the first install task */
    | RepoAfterInstall(repoIndex: nat, installIndex: nat)

  /** `task.get("name") == name` */
  predicate Named(task: Json, name: string) {
    Get(task, "name") == Some(JStr(name))
  }

  /** The index of the first task with the given name. */
  function FirstIndex(tasks: seq<Json>, name: string): (r: Option<nat>)
    ensures r.None? <==> forall i :: 0 <= i < |tasks| ==> !Named(tasks[i], name)
    ensures r.Some? ==> r.value < |tasks| && Named(tasks[r.value], name)
    ensures r.Some? ==> forall i :: 0 <= i < r.value ==> !Named(tasks[i], name)
  {
    if |tasks| == 0 then None
    else if Named(tasks[0], name) then Some(0)
    else
      var rest := FirstIndex(tasks[1..], name);
      assert forall j :: 1 <= j < |tasks| ==> tasks[j] == tasks[1..][j - 1];
      if rest.None? then None else Some(rest.value + 1)
  }

  /** No task carries both names. */
  lemma NamesDiffer(task: Json)
    ensures !(Named(task, RepoTask) && Named(task, InstallTask))
  {
    assert RepoTask[0] != InstallTask[0];
  }

  /** Reference: some repository task has no install task before it and an
      install task after it. */
  ghost predicate RepoPrecedesInstall(tasks: seq<Json>) {
    exists i, k :: OrderedAt(tasks, i, k)
  }

  /** Task `i` configures the repositories, task `k` after it installs the
      package, and no task before `i` installs it. */
  ghost predicate OrderedAt(tasks: seq<Json>, i: int, k: int) {
    && 0 <= i < k < |tasks|
    && Named(tasks[i], RepoTask) && Named(tasks[k], InstallTask)
    && forall j :: 0 <= j < i ==> !Named(tasks[j], InstallTask)
  }

  /** Every task is a mapping, so `task.get` does not raise. */
  predicate AllMappings(tasks: seq<Json>) {
    forall i :: 0 <= i < |tasks| ==> tasks[i].JObject?
  }

  /** Lines 202-215 on the enumerated task list. */
  function CheckTasks(tasks: seq<Json>): (r: Verdict<TaskOrderViolation>)
    ensures r != Skip
    ensures r.Fail? && r.violation.RepoAfterInstall? ==>
      r.violation.installIndex < r.violation.repoIndex
  {
    if !AllMappings(tasks) then Fail(TaskNotAMapping)
    else match FirstIndex(tasks, RepoTask)
      case None => Fail(RepoTaskMissing)
      case Some(repo) =>
        match FirstIndex(tasks, InstallTask)
        case None => Fail(InstallTaskMissing)
        case Some(install) =>
          assert repo != install by { NamesDiffer(tasks[repo]); }
          if repo < install then Pass else Fail(RepoAfterInstall(repo, install))
  }

  /** `test_reporting_workspace_repo_setup_precedes_package_install`, lines
      202-215: the ordering part of the check on the loaded task file. */
  function ValidateTaskOrder(doc: Json): (r: Verdict<TaskOrderViolation>)
    ensures r != Skip
    ensures r == Pass <==>
      Iterate(doc).Some? && AllMappings(Iterate(doc).value) && RepoPrecedesInstall(Iterate(doc).value)
  {
    match Iterate(doc)
    case None => Fail(TasksNotIterable)
    case Some(tasks) =>
      CheckTasksPassIff(tasks);
      CheckTasks(tasks)
  }

  /** A passing check exhibits the reference witnesses: the first
      repository task and the first install task after it. */
  lemma PassMeansRepoPrecedesInstall(tasks: seq<Json>)
    requires CheckTasks(tasks) == Pass
    ensures AllMappings(tasks) && RepoPrecedesInstall(tasks)
  {
    var repo, install := FirstIndex(tasks, RepoTask).value, FirstIndex(tasks, InstallTask).value;
    assert repo < install;
    assert Named(tasks[repo], RepoTask) && Named(tasks[install], InstallTask);
    assert OrderedAt(tasks, repo, install);
  }

  /** A named task bounds the first index of its name from above. */
  lemma FirstIndexAtMost(tasks: seq<Json>, name: string, i: nat)
    requires i < |tasks| && Named(tasks[i], name)
    ensures FirstIndex(tasks, name).Some? && FirstIndex(tasks, name).value <= i
  {
  }

  /** A prefix without the name bounds its first index from below. */
  lemma FirstIndexBeyond(tasks: seq<Json>, name: string, n: nat)
    requires n <= |tasks|
    requires forall j :: 0 <= j < n ==> !Named(tasks[j], name)
    ensures FirstIndex(tasks, name).Some? ==> FirstIndex(tasks, name).value >= n
  {
  }

  /** Witnesses of the reference order put the first repository task
      before the first install task. */
  lemma FirstOccurrencesOrdered(tasks: seq<Json>, i: int, k: int)
    requires OrderedAt(tasks, i, k)
    ensures FirstIndex(tasks, RepoTask).Some? && FirstIndex(tasks, InstallTask).Some?
    ensures FirstIndex(tasks, RepoTask).value < FirstIndex(tasks, InstallTask).value
  {
    NamesDiffer(tasks[i]);
    assert forall j :: 0 <= j < i + 1 ==> !Named(tasks[j], InstallTask);
    FirstIndexAtMost(tasks, RepoTask, i);
    FirstIndexAtMost(tasks, InstallTask, k);
    FirstIndexBeyond(tasks, InstallTask, i + 1);
  }

  /** Conversely, a repository task with no install task before it and one
      after it makes the first occurrences come in that order. */
  lemma RepoPrecedesInstallMeansPass(tasks: seq<Json>)
    requires AllMappings(tasks) && RepoPrecedesInstall(tasks)
    ensures CheckTasks(tasks) == Pass
  {
    var i, k :| OrderedAt(tasks, i, k);
    FirstOccurrencesOrdered(tasks, i, k);
  }

  /** The ordering check passes exactly when the tasks are mappings and some
      repository task precedes every install task and is followed by one. */
  lemma CheckTasksPassIff(tasks: seq<Json>)
    ensures CheckTasks(tasks) == Pass <==> AllMappings(tasks) && RepoPrecedesInstall(tasks)
  {
    if CheckTasks(tasks) == Pass {
      PassMeansRepoPrecedesInstall(tasks);
    }
    if AllMappings(tasks) && RepoPrecedesInstall(tasks) {
      RepoPrecedesInstallMeansPass(tasks);
    }
  }

  /** The check on the task file passes exactly when the file is a list of
      mappings in which some repository task precedes every install task
      and is followed by one. */
  lemma ValidateTaskOrderPassIff(doc: Json)
    ensures ValidateTaskOrder(doc) == Pass <==>
      Iterate(doc).Some? && AllMappings(Iterate(doc).value) && RepoPrecedesInstall(Iterate(doc).value)
  {
    if Iterate(doc).Some? {
      CheckTasksPassIff(Iterate(doc).value);
    }
  }

  /** Absence of either task fails the check, with the violation the Python test
      raises: the repository task is looked for first. */
  lemma MissingTaskFails(tasks: seq<Json>)
    requires AllMappings(tasks)
    ensures (forall i :: 0 <= i < |tasks| ==> !Named(tasks[i], RepoTask)) ==>
      CheckTasks(tasks) == Fail(RepoTaskMissing)
    ensures ((exists i :: 0 <= i < |tasks| && Named(tasks[i], RepoTask))
         && (forall i :: 0 <= i < |tasks| ==> !Named(tasks[i], InstallTask))) ==>
      CheckTasks(tasks) == Fail(InstallTaskMissing)
  {
  }
}

=== FILE: verdicts.dfy ===
/** Outcome types shared by every validator. */
module Verdicts {

  /** A value that may be absent. */
  datatype Option<+T> = None | Some(value: T)

  /** A computed value, or the violation that stopped the computation. */
  datatype Result<+T, +E> = Ok(value: T) | Err(error: E)

  /** The tri-state outcome of one check: it held, it was violated, or it
      did not apply to the document at hand. Skip is never a Pass. */
  datatype Verdict<+V> = Pass | Fail(violation: V) | Skip
}
